=== FILE: README.md ===
# Universal sensor modules of the greenhouse controller — a Dafny model

This project models the core of `Main/UniversalSensors.cpp`, the part of the greenhouse controller firmware that
absorbs "universal" sensor modules sitting on 1-Wire lines into the controller's own sensor state arrays:

- **Scratchpad and transport** (`scratchpad.dfy`, module `Scratchpad`). The fixed-size packet is a byte
  sequence with explicit field offsets. Reading accepts a packet only if its last byte is the CRC-8 of the
  bytes before it. Writing stamps the controller id and the checksum into the packet before sending it.
  Start-measure and save-to-EEPROM are modelled as commands that succeed when the module answers.
- **Index registry** (`registry.dfy`, module `Registry`; lemmas in `registry_facts.dfy`, module
  `RegistryFacts`). This models `UniRegDispatcher`. The registry is an immutable record of four banks, one
  each for temperature, humidity, luminosity and soil moisture. A bank holds:
  - the host module, as the set of (state kind, absolute index) states it holds, or `None` if the module
    is absent from the build;
  - the hard-coded count;
  - the current count of virtual sensors.

  `AddUniSensor` merges a relative index into the dense absolute index space `hardCoded + index`.
  `ReadState`/`SaveState` persist the four counters as bytes, where 0xFF means "never written".
  `RestoreState` replays the allocation at boot. `GetRegisteredStates` maps a relative index back to host
  states.
- **Sensor data** (`sensor_data.dfy`, module `SensorData`). This covers `UpdateOneState`,
  `UpdateStateData` and the slot loop of `SensorsUniClient::Update`. It covers how the four data bytes of
  a slot become temperature, humidity or luminosity values, and the "no data" values pushed for an offline
  module.
- **Clients** (`clients.dfy`, module `Clients`). This covers the client factory, the sensor client's
  registration (which saves the counters iff something grew), its periodic update with the 5-second
  measurement throttle, and the inert dummy client.
- **Lines** (`lines.dfy`, module `Lines`). This covers the permanent line's timer tick
  (`UniPermanentLine::Update`) and the registration line (`UniRegistrationLine`).

Everything is pure functions over immutable values, except the boot replay, which is a method whose loops
mirror the firmware's. Bus answers, the CRC primitive, the clock, the random phase, the controller id and
the EEPROM base address are parameters.

`UniversalSensors.h` and the project's global header are not part of this model. The model therefore fixes
the constants defined there:

- the `UniSensorType` tags: uniNone 0, uniTemp 1, uniHumidity 2, uniLuminosity 3, uniSoilMoisture 4,
  uniPH 5;
- uniSensorsClient = 1;
- `MAX_UNI_SENSORS` = 3, and a 24-byte payload;
- the header bytes: packet type, then controller id;
- the slot layout: type, index, then 4 data bytes;
- `NO_TEMPERATURE_DATA` = -128;
- `NO_LUMINOSITY_DATA` = 0xFFFFFFFF, the `unsigned long` that -1 becomes.

Most proofs hold for any values of these constants that keep the slots inside the payload. Three parts
do depend on the tag values:

- `SensorData.DataOffset` compares the type byte with 2, as the source compares it with uniHumidity.
- The counterexample lemmas `SensorData.StaleSecondState` and `SensorData.StaleNotFed` use concrete
  packets whose tags are uniHumidity = 2 and uniTemp = 1.
- `Clients.GetClient` uses uniSensorsClient = 1.

The decode of `memcpy(&lum, data, 4)` assumes a little-endian target.

Behaviour worth knowing, modelled as the code does it:

- A relative index of 254 makes a count of 255. That count is saved as 0xFF, and at boot it reads back as
  "never written" (`Registry.SaveThenReadLosesFullCount`).
- A read that fails the checksum still overwrites the buffer, although it reports failure like an absent
  module.
- The permanent line's "went offline" update of its last client decodes whatever `SHARED_SCRATCHPAD`
  holds. That may be another line's packet or a packet that failed the checksum. Only "no data" values
  are pushed then (`Lines.OfflineUpdate`).
- A humidity lookup counts as found on its temperature state alone, as in the source.
- All permanent lines share one sensor client, and its throttle starts a measurement on the pin it was
  last bound to. The offline update at the start of a poll can therefore start the measurement on
  another line's pin. The polling line's own update then finds the cooldown restarted and measures
  nothing (`Lines.OfflineMeasuresOnSharedPin`).

## Model

| member | source | states |
|---|---|---|
| `Bytes.Int8` | Main/UniversalSensors.cpp:143 | the signed reading of a data byte is the two's-complement value congruent to it |
| `Bytes.Int8RoundTrip` | Main/UniversalSensors.cpp:143-150 | signed reinterpretation and its inverse are mutually inverse |
| `Bytes.LittleEndianRoundTrip` | Main/UniversalSensors.cpp:172-177 | the 4-byte luminosity copy and the little-endian storage of a value are mutually inverse |
| `Bytes.Sub32` | Main/UniversalSensors.cpp:101-102 | the unsigned millisecond difference is the value that added to the earlier time gives the later one, mod 2^32 |
| `Scratchpad.FrameRoundTrip` | Main/UniversalSensors.cpp:642-648 | the packet bytes and the (type, controller id, payload, checksum) view are inverse bijections |
| `Scratchpad.SlotsRoundTrip` | Main/UniversalSensors.cpp:77-95 | laying out the slots in the payload and reading them back gives the same slots |
| `Scratchpad.Read` | Main/UniversalSensors.cpp:628-649 | accepted iff the pin is usable, a module answered the reset and the last byte is the CRC of the others; received bytes land in the buffer even when rejected |
| `Scratchpad.AbsentAndCorruptReadAlike` | Main/UniversalSensors.cpp:635-648 | a missing module and a checksum failure give the caller the same answer |
| `Scratchpad.Stamp` | Main/UniversalSensors.cpp:675-679 | after stamping, the header carries this controller's id, the checksum is valid and no other byte changed |
| `Scratchpad.Write` | Main/UniversalSensors.cpp:668-693 | succeeds iff the pin is usable and both resets are answered; the buffer is stamped even when no module answers |
| `Scratchpad.Issue` | Main/UniversalSensors.cpp:651-666 | start-measure and save (lines 695-711) succeed iff the pin is usable and both resets are answered |
| `Scratchpad.WriteThenReadAccepted` | Main/UniversalSensors.cpp:668-693 | what a successful write leaves on the module is accepted by the next read and carries this controller's id |
| `Registry.SensorTypeOf` | Main/UniversalSensors.cpp:52-55 | tags above 5 are no sensor type the switches know |
| `Registry.Allocation` | Main/UniversalSensors.cpp:298-301 | the states allocated for a range of relative indices are exactly every kind of the category at each absolute index `hardCoded + index` |
| `Registry.AddSpan` | Main/UniversalSensors.cpp:321-325 | the allocation loop adds exactly the allocation of its index range (two states per index for humidity) |
| `Registry.AddUniSensor` | Main/UniversalSensors.cpp:272-388 | refuses and changes nothing for index 0xFF, uniNone/uniPH/unknown type, absent module, or an index already covered; otherwise succeeds, the count becomes index+1 and exactly the missing indices' states are added, other banks untouched |
| `Registry.GetUniSensorsCount` | Main/UniversalSensors.cpp:390-403 | the current count of the type's category, 0 for types without one |
| `Registry.GetState` | Main/UniversalSensors.cpp:555 | a state is returned iff the module holds one of that kind at that absolute index |
| `Registry.GetRegisteredStates` | Main/UniversalSensors.cpp:541-602 | found iff the category's module holds the first state at `hardCoded + index`; every state returned belongs to that index; for humidity State2 is set exactly when the module holds the humidity state at that index (and cleared otherwise); for other categories the caller's previous State2 is kept |
| `Registry.SaveState` | Main/UniversalSensors.cpp:531-539 | the four counters land at base+0..3 in the order temperature, humidity, luminosity, soil moisture; nothing else changes |
| `Registry.Loaded` | Main/UniversalSensors.cpp:451-453 | a stored 0xFF keeps the prior counter, any other byte replaces it |
| `Registry.ReadState` | Main/UniversalSensors.cpp:447-467 | each counter is loaded from its own address; hosts and hard-coded counts are untouched |
| `Registry.SaveThenRead` | Main/UniversalSensors.cpp:447-539 | saving then reading restores every counter below 255 |
| `Registry.SaveThenReadLosesFullCount` | Main/UniversalSensors.cpp:447-539 | a counter of 255 is saved as 0xFF and reads back as "never written" |
| `Registry.ReadBlank` | Main/UniversalSensors.cpp:447-467 | blank storage leaves every counter at its default |
| `Registry.RestoreBank` | Main/UniversalSensors.cpp:480-489 | the replay loop adds exactly the states of relative indices 0..count-1 and leaves the bank dense |
| `Registry.RestoreState` | Main/UniversalSensors.cpp:469-529 | every bound bank is replayed with exactly the states of relative indices below its counter, unbound ones are untouched, counters and hard-coded counts unchanged, the result dense |
| `Registry.ReplayIsOneRegistration` | Main/UniversalSensors.cpp:469-529 | replaying a count n adds the same states as registering index n-1 on an empty counter |
| `Registry.Setup` | Main/UniversalSensors.cpp:420-445 | after boot every counter holds its stored byte, or 0 if that byte is 0xFF; an absent module leaves its category unbound with no hard-coded states; a present module's hard-coded count is its number of states of the counted kind, and it holds exactly its own states plus those of relative indices below the counter; the registry is dense |
| `RegistryFacts.AddPreservesDense` | Main/UniversalSensors.cpp:296-304 | registration keeps every relative index below the count allocated |
| `RegistryFacts.AddExtends` | Main/UniversalSensors.cpp:292-304 | registration never lowers a counter, never removes a state, never binds or unbinds a module |
| `RegistryFacts.AddIdempotent` | Main/UniversalSensors.cpp:292-293 | registering the same index twice equals registering it once; the second call is refused |
| `RegistryFacts.CountAfterAdd` | Main/UniversalSensors.cpp:390-403 | after a successful registration the reported count is index+1; a refused one changes no count |
| `RegistryFacts.RefusalPersists` | Main/UniversalSensors.cpp:281-293 | a refused registration stays refused as the registry grows |
| `RegistryFacts.AddAllCount` | Main/UniversalSensors.cpp:272-388 | after any sequence of registrations in a bound category the count is max(old count, largest index + 1), the registry stays dense and other categories are untouched |
| `RegistryFacts.LookupMirrorsAllocation` | Main/UniversalSensors.cpp:553-570 | in a dense registry every relative index below the count is found (humidity with both states) |
| `RegistryFacts.AddThenLookup` | Main/UniversalSensors.cpp:541-602 | after registering index i, every index up to i can be looked up |
| `RegistryFacts.FreshLookupTargetsOwnSlot` | Main/UniversalSensors.cpp:541-602 | a lookup from an empty pair yields only states of the slot's own category at `hardCoded + index` |
| `SensorData.NoData` | Main/UniversalSensors.cpp:147-172 | the offline value matches the state's reading shape |
| `SensorData.DataOffset` | Main/UniversalSensors.cpp:138-141 | a temperature state of a humidity sensor reads from byte 2, everything else from byte 0 |
| `SensorData.UpdateOneState` | Main/UniversalSensors.cpp:122-192 | nothing for a null state or a sentinel slot, and nothing for water-flow, pH or unknown states; otherwise the pushed value has the state's shape; offline it is the "no data" value; online its bytes are exactly the slot bytes at the state's offset |
| `SensorData.DecodeEncoded` | Main/UniversalSensors.cpp:136-180 | a slot carrying a value's bytes at the state's offset pushes exactly that value online |
| `SensorData.UpdateStateData` | Main/UniversalSensors.cpp:112-120 | at most two pushes, each into a state of the pair and each the one UpdateOneState makes for it |
| `SensorData.SlotPushes` | Main/UniversalSensors.cpp:83-96 | one slot's turn with a fresh pair: every push comes from a registered slot and is the value it decodes for a state it owns, and every state a registered slot owns gets its value; offline only "no data" |
| `SensorData.UpdateSlots` | Main/UniversalSensors.cpp:77-97 | corrected slot loop: every push is the value some registered slot decodes for a state it owns, and every state of every registered slot gets its value; offline only "no data" |
| `SensorData.UpdateSlotsAsWritten` | Main/UniversalSensors.cpp:77-97 | the slot loop as written, with one state pair kept across slots: every state of every registered slot still gets its value; every push is a value some registered slot decodes, into a state some slot of the packet owns (or the second state handed in), but not necessarily the slot that decoded it |
| `SensorData.AsWrittenAgreesWithoutHumidity` | Main/UniversalSensors.cpp:77-97 | without humidity slots the loop as written and the corrected loop push the same values |
| `SensorData.StaleSecondState` | Main/UniversalSensors.cpp:77-97 | the loop as written pushes a temperature slot's bytes into a preceding humidity slot's Humidity state |
| `Clients.GetClient` | Main/UniversalSensors.cpp:17-31 | the sensor client iff a packet with the sensor tag is given, the dummy otherwise |
| `Clients.RegisterSlot` | Main/UniversalSensors.cpp:46-60 | slots with type 0xFF or uniNone are skipped, others go to AddUniSensor |
| `Clients.RegisterSlots` | Main/UniversalSensors.cpp:46-61 | registering slots only grows the registry, never binds or unbinds a module; with no success it is unchanged, with at least one some counter grew; at most one success per slot |
| `Clients.SensorsRegister` | Main/UniversalSensors.cpp:40-65 | the registry only grows; the counters are saved, as SaveState of the new registry, exactly when some counter grew; otherwise neither the registry nor the EEPROM changes |
| `Clients.RegisterCoversSlots` | Main/UniversalSensors.cpp:46-61 | after registering a packet every one of its slots is refused |
| `Clients.RefusedSlotsChangeNothing` | Main/UniversalSensors.cpp:46-61 | a packet whose slots are all refused changes nothing |
| `Clients.RegisterIdempotent` | Main/UniversalSensors.cpp:40-65 | registering the same packet again changes neither registry nor EEPROM |
| `Clients.RegisterPreservesDense` | Main/UniversalSensors.cpp:40-65 | registration keeps the registry dense |
| `Clients.SensorsUpdate` | Main/UniversalSensors.cpp:67-110 | with the per-slot pair of the corrected loop: every state of every registered slot gets the value its slot decodes and nothing else is pushed (every push comes from a registered slot; only "no data" offline); a measurement starts on the bound pin iff more than 5000 ms passed (mod 2^32), and the timer is then reset |
| `Clients.SensorsUpdateAsWritten` | Main/UniversalSensors.cpp:67-110 | as written: every state of every registered slot gets its value; every push is a value some registered slot decodes (only "no data" offline), into a state some slot of the packet owns but not necessarily the one that decoded it; a measurement starts on the bound pin iff more than 5000 ms passed (mod 2^32), and the timer is then reset |
| `Clients.UpdateAgreesWithoutHumidity` | Main/UniversalSensors.cpp:77-97 | without a humidity slot the update as written and the corrected one are identical |
| `Clients.Measured` | Main/UniversalSensors.cpp:99-107 | a measurement is started on the bound pin and the timer reset iff more than 5000 ms passed since the last one, mod 2^32; otherwise the client is unchanged |
| `Clients.ClientRegister` | Main/UniversalSensors.cpp:748-751 | whichever client the factory picks, registration only grows the registry, saves SaveState of the new counters iff a counter grew, and otherwise changes nothing; the dummy's saves nothing and changes nothing |
| `Clients.ClientUpdate` | Main/UniversalSensors.cpp:235-237 | whichever client the factory picks, every push is a value a registered slot decodes for a state it owns; the sensor client delivers every registered slot's values and, iff the cooldown passed, measures on the pin it is bound to and resets its timer; the dummy pushes nothing, leaves the client unchanged and measures nothing |
| `Clients.SetPin` | Main/UniversalSensors.cpp:236 | the sensor client takes the line's pin and keeps its measurement timer; the dummy is unchanged |
| `Clients.ForeignPacketsInert` | Main/UniversalSensors.cpp:17-31 | packets with another type tag touch neither the registry, the EEPROM nor any state |
| `Lines.NewPermanentLine` | Main/UniversalSensors.cpp:196-202 | a new line has no client and a phase within the interval |
| `Lines.IsRegistered` | Main/UniversalSensors.cpp:204-207 | true iff the packet's controller id field is this controller's id |
| `Lines.OfflineUpdate` | Main/UniversalSensors.cpp:218-221 | no previous client: nothing; otherwise it is that client's offline update on the shared buffer, which marks every state of the buffer's registered slots "no data" and pushes nothing else |
| `Lines.Tick` | Main/UniversalSensors.cpp:209-245 | polls iff the accumulated time reaches the interval, then subtracts one interval; the offline update of the last client comes first; a failed read or another controller's module leaves the last client as it was and only the offline update's pushes and measurement happen; for an owned module the client for its type becomes the last client, is bound to the line's pin, and its online update of the read packet follows the offline pushes and measurement, delivering every registered slot's values |
| `Lines.OfflineMeasuresOnSharedPin` | Main/UniversalSensors.cpp:209-245 | when a line whose last client is the sensor client polls after the cooldown, the one measurement of the tick starts on the pin the shared client was last bound to, not necessarily this line's |
| `Lines.ForeignModuleIgnored` | Main/UniversalSensors.cpp:226-232 | with no prior client, another controller's module causes no push and leaves no client |
| `Lines.AbsentModuleGoesOffline` | Main/UniversalSensors.cpp:218-243 | a failed read still delivers the offline update, and nothing else |
| `Lines.TimerStaysBelowInterval` | Main/UniversalSensors.cpp:211-216 | the accumulator stays below the interval when steps do not exceed it |
| `Lines.NewRegistrationLine` | Main/UniversalSensors.cpp:715-720 | a new registration line's buffer is all 0xFF |
| `Lines.IsModulePresent` | Main/UniversalSensors.cpp:722-728 | present iff a read into the line's buffer is accepted; whatever bytes were received land in the buffer even when the checksum fails; pin 0 or no presence pulse leaves the line unchanged |
| `Lines.CopyScratchpad` | Main/UniversalSensors.cpp:730-733 | the copy has the same fields as the buffer |
| `Lines.IsSameScratchpadType` | Main/UniversalSensors.cpp:761-767 | true iff a packet is given and its type tag equals the buffer's |
| `Lines.SetScratchpadData` | Main/UniversalSensors.cpp:769-776 | replaces the buffer iff the type tags agree, otherwise changes nothing; the type tag never changes |
| `Lines.Register` | Main/UniversalSensors.cpp:735-759 | the buffer's client registers it; the line keeps its pin; with a usable pin the buffer written back is the same packet with only this controller's id and the checksum stamped, with pin 0 it is untouched; committed iff the write and the save both succeeded |
| `Lines.RegisteredModuleIsPolled` | Main/UniversalSensors.cpp:735-759 | after a successful registration write, a read-back is accepted, owned by this controller and handed to the same client |

## Left out

- The 1-Wire bus (`ow.reset`, `ow.write`, `ow.read`, `delay(100)`): each transaction takes the bus's answer
  as a parameter, either the presence and closing resets or the bytes clocked in.
- `OneWire::crc8` is an external library routine. It is a parameter `Crc8`, so the model does not prove
  that a corrupted payload byte fails the check, which is a property of the CRC polynomial.
- The EEPROM is a map from address to byte, where an unwritten address reads 0xFF. Its base address
  `UNI_SENSOR_INDICIES_EEPROM_ADDR` is a parameter.
- `millis()` is the parameter `now`. `random()` in the permanent line's constructor is the parameter
  `draw`. The poll interval `UNI_MODULE_UPDATE_INTERVAL` is a parameter.
- `MainController->GetModuleByID` and `GetSettings()->GetControllerID()` are not modelled. Module
  presence is an `Option` per category and the controller id is a parameter. `UniDispatcher.GetControllerID`
  is therefore not a member of its own.
- The dummy client is declared in the header, which is not part of this model. Its `Register`, `Update` and
  `SetPin` are modelled as doing nothing.
- `OneState::Update` and the `Temperature`/`Humidity` value classes: a push records the target state and
  the value handed to it.
- The pH module pointer, `hardCodedPHCount` and `GetHardCodedSensorsCount` are left out. No modelled
  operation uses them: the registry refuses uniPH.
- `UniScratchpadClass::begin` and the null-buffer half of `canWork` are left out, because every caller
  passes a real buffer. Only the `pin > 0` half of `canWork` is modelled.
- The struct overlay, `memset` and `memcpy` are explicit byte offsets. The field layout of the header
  file is assumed, as listed above.
- Integer widths not visible in this file: the absolute index passed to `AddState`, the permanent
  line's timer and the hard-coded counts are unbounded. The hard-coded counts are
  `Registry.Bank.hardCoded`, whose getter `GetHardCodedSensorsCount` returns `uint8_t` (line 405).
  The sensor client's `measureTimer` is assumed to be the 32-bit `unsigned long` that `millis()`
  returns.
- Tick: `dt` is declared `uint16_t` at line 209 and is generalised to an unbounded natural. Every value
  a `uint16_t` holds is covered.
- Tick: one `now` serves both client updates of a tick. The source calls `millis()` afresh in each
  `Update` (line 101), so the two calls may see different times.
- SensorsUpdate: built on the corrected slot loop `SensorData.UpdateSlots`, which resets the state pair
  for every slot. The loop as written is `Clients.SensorsUpdateAsWritten` (see "## Findings"). The two
  agree whenever no packet has a humidity slot (`Clients.UpdateAgreesWithoutHumidity`).
- ClientUpdate: inherits the corrected slot loop from `Clients.SensorsUpdate`.
- OfflineUpdate: inherits the corrected slot loop through `Clients.ClientUpdate`. Offline this changes
  only which states receive "no data", never the value.
- Tick: inherits the corrected slot loop for both its offline and its online update.
- The initial content of `UniSensorState` is taken as two null pointers, because its constructor is in
  the header.
- Issue: one member stands for both `startMeasure` and `save`. It does not model the command byte each
  one sends, whose value is in the header, or the 100 ms settle delay of `save`.

## Findings

| source | as written | input that shows it | evidently intended | confidence | as-written member | corrected member |
|---|---|---|---|---|---|---|
| Main/UniversalSensors.cpp:78-95 | `UniSensorState states` is declared once, before the slot loop. `GetRegisteredStates` overwrites `State2` only for humidity sensors, so a later temperature, luminosity or soil slot also updates the `State2` left by an earlier humidity slot. | Slot 0: humidity, index 0, data (40, 0, 20, 0). Slot 1: temperature, index 0, data (25, 5, 0, 0). Both are registered. Slot 0's Humidity state receives humidity (25, 5), which is slot 1's temperature. | Each slot feeds only its own states: the pair is reset for every slot. | high, not executed | `SensorData.UpdateSlotsAsWritten`, `Clients.SensorsUpdateAsWritten`, `SensorData.StaleSecondState` | `SensorData.UpdateSlots`, `Clients.SensorsUpdate` |

=== FILE: bytes.dfy ===
/** Fixed-width integers of the firmware, written out explicitly: Dafny's
    integers are unbounded, the microcontroller's are not. */
module Bytes {

  /** uint8_t */
  type byte = x: int | 0 <= x < 0x100

  /** uint32_t / unsigned long on the target */
  type uint32 = x: int | 0 <= x < 0x1_0000_0000

  /** int8_t */
  type int8 = x: int | -0x80 <= x < 0x80

  /** The reinterpretation `(int8_t) b` of a byte as a two's-complement
      signed value. */
  function Int8(b: byte): (v: int8)
    ensures v % 0x100 == b
    ensures 0 <= v <==> b < 0x80
  {
    if b < 0x80 then b else b - 0x100
  }

  /** The byte that holds the signed value `v`: the inverse of `Int8`. */
  function Int8Byte(v: int8): (b: byte)
    ensures b % 0x100 == v % 0x100
  {
    if v >= 0 then v else v + 0x100
  }

  lemma Int8RoundTrip(b: byte, v: int8)
    ensures Int8Byte(Int8(b)) == b
    ensures Int8(Int8Byte(v)) == v
  {
  }

  /** `memcpy(&lum, bytes, 4)` on a little-endian target: the four bytes as
      one unsigned 32-bit value, least significant byte first. */
  function LittleEndian32(s: seq<byte>): (v: uint32)
    requires |s| == 4
  {
    s[0] as int + 0x100 * (s[1] as int + 0x100 * (s[2] as int + 0x100 * s[3] as int))
  }

  /** The four bytes a little-endian target stores for `v`. */
  function LittleEndianBytes(v: uint32): (s: seq<byte>)
    ensures |s| == 4
  {
    var q1 := v / 0x100;
    var q2 := q1 / 0x100;
    [v % 0x100, q1 % 0x100, q2 % 0x100, q2 / 0x100]
  }

  /** Storing a value and reading the same four bytes back gives the value,
      and every four-byte group is the storage of exactly one value. */
  lemma LittleEndianRoundTrip(v: uint32, s: seq<byte>)
    requires |s| == 4
    ensures LittleEndian32(LittleEndianBytes(v)) == v
    ensures LittleEndianBytes(LittleEndian32(s)) == s
  {
    var q1 := v / 0x100;
    var q2 := q1 / 0x100;
    assert v == v % 0x100 + 0x100 * q1;
    assert q1 == q1 % 0x100 + 0x100 * q2;
    assert q2 == q2 % 0x100 + 0x100 * (q2 / 0x100);
    var hi := s[1] as int + 0x100 * (s[2] as int + 0x100 * s[3] as int);
    var mid := s[2] as int + 0x100 * s[3] as int;
    DivModByte(s[0], hi);
    DivModByte(s[1], mid);
    DivModByte(s[2], s[3]);
  }

  /** The low byte and the quotient of `lo + 256 * hi`. */
  lemma DivModByte(lo: byte, hi: int)
    ensures (lo + 0x100 * hi) % 0x100 == lo
    ensures (lo + 0x100 * hi) / 0x100 == hi
  {
  }

  /** `a - b` on two unsigned 32-bit values: the difference modulo 2^32. */
  function Sub32(a: uint32, b: uint32): (d: uint32)
    ensures (b + d) % 0x1_0000_0000 == a
  {
    (a - b) % 0x1_0000_0000
  }
}

=== FILE: clients.dfy ===
/** The module clients: the factory that picks a client for a packet's type
    tag, and the sensor client, which registers a sensor module's slots in
    the index registry and pushes the slots' readings into the host's state
    objects. The host's state objects are not modelled; a push records
    which state received which value. */
module Clients {
  import opened Wrappers
  import opened Bytes
  import opened Scratchpad
  import opened Registry
  import opened RegistryFacts
  import opened SensorData

  /** uniSensorsClient: the packet type tag of a sensor module. */
  const SensorsClientTag: byte := 1

  /** The closed set of clients; the dummy does nothing. */
  datatype ClientKind = SensorsClient | DummyClient

  /** `UniClientsFactory::GetClient`: the sensor client for a sensor packet,
      the inert dummy for any other tag and for no packet at all. */
  function GetClient(packet: Option<Packet>): (k: ClientKind)
    ensures k == SensorsClient <==> packet.Some? && PacketType(packet.value) == SensorsClientTag
    ensures k != SensorsClient ==> k == DummyClient
  {
    match packet
    case None => DummyClient
    case Some(p) => if PacketType(p) == SensorsClientTag then SensorsClient else DummyClient
  }

  // ---------------------------------------------------------------------
  // Registration
  // ---------------------------------------------------------------------

  /** One turn of the loop in `SensorsUniClient::Register`. */
  function RegisterSlot(d: Dispatcher, s: Slot): (r: Reply)
    ensures Untyped(s) ==> r == Reply(false, d)
    ensures !Untyped(s) ==> r == AddUniSensor(d, SensorTypeOf(s.sensorType), s.index)
  {
    if Untyped(s) then Reply(false, d) else AddUniSensor(d, SensorTypeOf(s.sensorType), s.index)
  }

  /** The registry after registering `slots` in order, and how many
      registrations succeeded (`addedCount`). */
  datatype Registration = Registration(dispatcher: Dispatcher, added: nat)

  /** Some counter grew from `d` to `d'`. */
  ghost predicate Grew(d: Dispatcher, d': Dispatcher) {
    exists c :: d.BankOf(c).current < d'.BankOf(c).current
  }

  /** The loop of `SensorsUniClient::Register`: the registry only grows; it
      is unchanged when no registration succeeded, and some counter grew
      when one did. */
  function RegisterSlots(d: Dispatcher, slots: seq<Slot>): (r: Registration)
    ensures r.added <= |slots|
    ensures Extends(d, r.dispatcher)
    ensures r.added == 0 ==> r.dispatcher == d
    ensures r.added > 0 ==> Grew(d, r.dispatcher)
    decreases |slots|
  {
    if slots == [] then Registration(d, 0)
    else
      var step := RegisterSlot(d, slots[0]);
      var rest := RegisterSlots(step.dispatcher, slots[1..]);
      RegisterStep(d, slots[0], rest.dispatcher, rest.added);
      Registration(rest.dispatcher, rest.added + if step.added then 1 else 0)
  }

  /** One turn followed by the rest of the loop: growth composes. */
  lemma RegisterStep(d: Dispatcher, s: Slot, d2: Dispatcher, added: nat)
    requires Extends(RegisterSlot(d, s).dispatcher, d2)
    requires added == 0 ==> d2 == RegisterSlot(d, s).dispatcher
    requires added > 0 ==> Grew(RegisterSlot(d, s).dispatcher, d2)
    ensures Extends(d, d2)
    ensures !RegisterSlot(d, s).added && added == 0 ==> d2 == d
    ensures RegisterSlot(d, s).added || added > 0 ==> Grew(d, d2)
  {
    var step := RegisterSlot(d, s);
    AddExtends(d, SensorTypeOf(s.sensorType), s.index);
    assert Extends(d, step.dispatcher);
    ExtendsTransitive(d, step.dispatcher, d2);
    if step.added {
      var c := CategoryOf(SensorTypeOf(s.sensorType)).value;
      assert d.BankOf(c).current < step.dispatcher.BankOf(c).current;
      assert ExtendsBank(step.dispatcher.BankOf(c), d2.BankOf(c));
      assert d.BankOf(c).current < d2.BankOf(c).current;
    } else if added > 0 {
      var c :| step.dispatcher.BankOf(c).current < d2.BankOf(c).current;
      assert d.BankOf(c).current < d2.BankOf(c).current;
    }
  }

  datatype RegisterOutcome = RegisterOutcome(dispatcher: Dispatcher, eeprom: Eeprom, saved: bool)

  /** `SensorsUniClient::Register`: registers every slot and saves the
      counters exactly when that grew at least one of them; otherwise
      neither the registry nor the EEPROM changes. */
  function SensorsRegister(d: Dispatcher, e: Eeprom, base: nat, p: Packet): (r: RegisterOutcome)
    ensures r.dispatcher == RegisterSlots(d, Slots(p)).dispatcher
    ensures Extends(d, r.dispatcher)
    ensures r.saved <==> Grew(d, r.dispatcher)
    ensures r.saved ==> r.eeprom == SaveState(r.dispatcher, e, base)
    ensures !r.saved ==> r.dispatcher == d && r.eeprom == e
  {
    var reg := RegisterSlots(d, Slots(p));
    if reg.added > 0 then RegisterOutcome(reg.dispatcher, SaveState(reg.dispatcher, e, base), true)
    else
      assert forall c :: reg.dispatcher.BankOf(c).current == d.BankOf(c).current;
      RegisterOutcome(reg.dispatcher, e, false)
  }

  /** Every slot of `slots` would be refused by `d`. */
  ghost predicate AllRefused(d: Dispatcher, slots: seq<Slot>) {
    forall k :: 0 <= k < |slots| ==> !RegisterSlot(d, slots[k]).added
  }

  lemma {:induction false} RegisterCoversSlots(d: Dispatcher, slots: seq<Slot>)
    ensures AllRefused(RegisterSlots(d, slots).dispatcher, slots)
    decreases |slots|
  {
    if slots != [] {
      var s := slots[0];
      var step := RegisterSlot(d, s);
      var d2 := RegisterSlots(step.dispatcher, slots[1..]).dispatcher;
      RegisterCoversSlots(step.dispatcher, slots[1..]);
      if !Untyped(s) {
        AddIdempotent(d, SensorTypeOf(s.sensorType), s.index);
        RefusalPersists(step.dispatcher, d2, SensorTypeOf(s.sensorType), s.index);
      }
      forall k | 0 <= k < |slots| ensures !RegisterSlot(d2, slots[k]).added {
        if k > 0 {
          assert slots[k] == slots[1..][k - 1];
        }
      }
    }
  }

  lemma {:induction false} RefusedSlotsChangeNothing(d: Dispatcher, slots: seq<Slot>)
    requires AllRefused(d, slots)
    ensures RegisterSlots(d, slots) == Registration(d, 0)
    decreases |slots|
  {
    if slots != [] {
      assert !RegisterSlot(d, slots[0]).added;
      forall k | 0 <= k < |slots| - 1 ensures !RegisterSlot(d, slots[1..][k]).added {
        assert slots[1..][k] == slots[k + 1];
      }
      RefusedSlotsChangeNothing(d, slots[1..]);
    }
  }

  /** Registering the same packet again changes nothing and saves nothing. */
  lemma RegisterIdempotent(d: Dispatcher, e: Eeprom, base: nat, p: Packet)
    ensures var once := SensorsRegister(d, e, base, p);
      SensorsRegister(once.dispatcher, once.eeprom, base, p) == RegisterOutcome(once.dispatcher, once.eeprom, false)
  {
    var once := SensorsRegister(d, e, base, p);
    RegisterCoversSlots(d, Slots(p));
    RefusedSlotsChangeNothing(once.dispatcher, Slots(p));
  }

  /** Registration keeps the registry dense. */
  lemma {:induction false} RegisterPreservesDense(d: Dispatcher, slots: seq<Slot>)
    requires Dense(d)
    ensures Dense(RegisterSlots(d, slots).dispatcher)
    decreases |slots|
  {
    if slots != [] {
      AddPreservesDense(d, SensorTypeOf(slots[0].sensorType), slots[0].index);
      RegisterPreservesDense(RegisterSlot(d, slots[0]).dispatcher, slots[1..]);
    }
  }

  // ---------------------------------------------------------------------
  // Periodic update
  // ---------------------------------------------------------------------

  /** How long the sensor client waits, in milliseconds, before it starts
      another measurement. */
  const MeasureCooldown: nat := 5000

  /** The fields of the one shared sensor client: the pin it was last bound
      to (`SetPin`) and when it last started a measurement. */
  datatype SensorsClientState = SensorsClientState(pin: byte, measureTimer: uint32)

  datatype UpdateResult = UpdateResult(pushes: seq<Push>, client: SensorsClientState, measuredOn: Option<byte>)

  /** The throttle `curMillis - measureTimer > 5000`, in unsigned 32-bit
      arithmetic, so it keeps working across the wrap of `millis()`. */
  predicate MeasureDue(now: uint32, last: uint32) {
    Sub32(now, last) > MeasureCooldown
  }

  /** The tail of `SensorsUniClient::Update`, after the slot loop: a
      measurement is started on the bound pin, and the timer reset, exactly
      when the cooldown has passed. Whether the module answers the start
      command does not matter to the client. */
  function Measured(pushes: seq<Push>, cs: SensorsClientState, now: uint32): (r: UpdateResult)
    ensures r.pushes == pushes
    ensures r.measuredOn.Some? <==> MeasureDue(now, cs.measureTimer)
    ensures r.measuredOn.Some? ==> r.measuredOn.value == cs.pin && r.client == cs.(measureTimer := now)
    ensures r.measuredOn.None? ==> r.client == cs
  {
    if MeasureDue(now, cs.measureTimer) then UpdateResult(pushes, cs.(measureTimer := now), Some(cs.pin))
    else UpdateResult(pushes, cs, None)
  }

  /** `SensorsUniClient::Update` at time `now`, with the state pair reset
      for every slot: every state a registered slot owns receives the value
      the slot decodes for it and nothing else is pushed; an offline module
      pushes only "no data". */
  function SensorsUpdate(d: Dispatcher, cs: SensorsClientState, p: Packet, online: bool, now: uint32): (r: UpdateResult)
    ensures forall q :: q in r.pushes ==> exists k :: 0 <= k < MaxSlots && FedBy(d, SlotAt(p, k), online, q)
    ensures forall k :: 0 <= k < MaxSlots ==> Delivers(d, SlotAt(p, k), online, r.pushes)
    ensures !online ==> forall q :: q in r.pushes ==> Fed(q.target.state.kind) && q.reading == NoData(q.target.state.kind)
    ensures r.measuredOn.Some? <==> MeasureDue(now, cs.measureTimer)
    ensures r.measuredOn.Some? ==> r.measuredOn.value == cs.pin && r.client == cs.(measureTimer := now)
    ensures r.measuredOn.None? ==> r.client == cs
  {
    Measured(UpdateSlots(d, Slots(p), online), cs, now)
  }

  /** `SensorsUniClient::Update` as written, with one state pair for the
      whole slot loop (`UpdateSlotsAsWritten`): registered slots still get
      their values, but a push may land in a state its slot does not own,
      though always in one some slot of the same packet owns. */
  function SensorsUpdateAsWritten(d: Dispatcher, cs: SensorsClientState, p: Packet, online: bool, now: uint32): (r: UpdateResult)
    ensures forall q :: q in r.pushes ==> exists k :: 0 <= k < MaxSlots && DecodedBy(d, SlotAt(p, k), online, q)
    ensures forall q :: q in r.pushes ==> exists j :: 0 <= j < MaxSlots && SlotOwns(d, SlotAt(p, j), q.target)
    ensures forall k :: 0 <= k < MaxSlots ==> Delivers(d, SlotAt(p, k), online, r.pushes)
    ensures !online ==> forall q :: q in r.pushes ==> Fed(q.target.state.kind) && q.reading == NoData(q.target.state.kind)
    ensures r.measuredOn.Some? <==> MeasureDue(now, cs.measureTimer)
    ensures r.measuredOn.Some? ==> r.measuredOn.value == cs.pin && r.client == cs.(measureTimer := now)
    ensures r.measuredOn.None? ==> r.client == cs
  {
    Measured(UpdateSlotsAsWritten(d, Slots(p), online, NoStates), cs, now)
  }

  /** Without a humidity slot the two updates are the same. */
  lemma UpdateAgreesWithoutHumidity(d: Dispatcher, cs: SensorsClientState, p: Packet, online: bool, now: uint32)
    requires forall k :: 0 <= k < MaxSlots ==> SensorTypeOf(SlotAt(p, k).sensorType) != UniHumidity
    ensures SensorsUpdateAsWritten(d, cs, p, online, now) == SensorsUpdate(d, cs, p, online, now)
  {
    AsWrittenAgreesWithoutHumidity(d, Slots(p), online, NoStates);
  }

  /** A client's `Register`, on whichever client the factory chose: it only
      grows the registry and saves exactly when a counter grew; the dummy's
      does nothing. */
  function ClientRegister(k: ClientKind, d: Dispatcher, e: Eeprom, base: nat, p: Packet): (r: RegisterOutcome)
    ensures Extends(d, r.dispatcher)
    ensures r.saved <==> Grew(d, r.dispatcher)
    ensures r.saved ==> r.eeprom == SaveState(r.dispatcher, e, base)
    ensures !r.saved ==> r.dispatcher == d && r.eeprom == e
    ensures k == DummyClient ==> !r.saved
  {
    match k
    case SensorsClient => SensorsRegister(d, e, base, p)
    case DummyClient => RegisterOutcome(d, e, false)
  }

  /** A client's `Update`, on whichever client the factory chose: every push
      is a value some slot of the packet decodes for a state it owns, the
      sensor client delivers every registered slot's values and, when one
      is due, starts a measurement on the pin it is bound to; the dummy's
      pushes nothing and changes nothing. */
  function ClientUpdate(k: ClientKind, d: Dispatcher, cs: SensorsClientState, p: Packet, online: bool, now: uint32): (r: UpdateResult)
    ensures forall q :: q in r.pushes ==> exists j :: 0 <= j < MaxSlots && FedBy(d, SlotAt(p, j), online, q)
    ensures k == SensorsClient ==> forall j :: 0 <= j < MaxSlots ==> Delivers(d, SlotAt(p, j), online, r.pushes)
    ensures r.measuredOn.Some? <==> k == SensorsClient && MeasureDue(now, cs.measureTimer)
    ensures r.measuredOn.Some? ==> r.measuredOn.value == cs.pin && r.client == cs.(measureTimer := now)
    ensures r.measuredOn.None? ==> r.client == cs
    ensures k == DummyClient ==> r == UpdateResult([], cs, None)
  {
    match k
    case SensorsClient => SensorsUpdate(d, cs, p, online, now)
    case DummyClient => UpdateResult([], cs, None)
  }

  /** A client's `SetPin`: only the sensor client keeps the pin. */
  function SetPin(k: ClientKind, cs: SensorsClientState, pin: byte): (cs': SensorsClientState)
    ensures k == SensorsClient ==> cs'.pin == pin
    ensures cs'.measureTimer == cs.measureTimer
    ensures k == DummyClient ==> cs' == cs
  {
    match k
    case SensorsClient => cs.(pin := pin)
    case DummyClient => cs
  }

  /** Packets whose tag is not the sensor tag never touch the registry,
      the EEPROM or any state. */
  lemma ForeignPacketsInert(d: Dispatcher, e: Eeprom, base: nat, cs: SensorsClientState, p: Packet, online: bool, now: uint32)
    requires PacketType(p) != SensorsClientTag
    ensures ClientRegister(GetClient(Some(p)), d, e, base, p) == RegisterOutcome(d, e, false)
    ensures ClientUpdate(GetClient(Some(p)), d, cs, p, online, now) == UpdateResult([], cs, None)
  {
  }
}

=== FILE: lines.dfy ===
/** The two kinds of 1-Wire line: the permanent line, polled on a timer,
    and the registration line, driven by the configuration workflow. Both
    go through the one shared scratchpad reader/writer; the permanent
    lines also share one scratchpad buffer and one sensor client. */
module Lines {
  import opened Wrappers
  import opened Bytes
  import opened Scratchpad
  import opened Registry
  import opened SensorData
  import opened Clients

  // ---------------------------------------------------------------------
  // Permanent line
  // ---------------------------------------------------------------------

  /** `UniPermanentLine`: its pin, the time accumulated since the last
      poll, and the client of the last module it saw (if any). */
  datatype PermanentLine = PermanentLine(pin: byte, timer: nat, lastClient: Option<ClientKind>)

  /** The constructor: the first poll comes at a random phase within the
      interval, `random(0, interval)`, whose draw is the parameter `draw`
      (Arduino's `random(min, max)` returns `min` when `max <= min`). */
  function NewPermanentLine(pin: byte, draw: nat, interval: nat): (line: PermanentLine)
    ensures line.pin == pin && line.lastClient.None?
    ensures interval > 0 ==> line.timer < interval
    ensures interval == 0 ==> line.timer == 0
  {
    PermanentLine(pin, if interval > 0 then draw % interval else 0, None)
  }

  /** What all permanent lines share: `SHARED_SCRATCHPAD` and the sensor
      client instance. */
  datatype Shared = Shared(scratchpad: Packet, client: SensorsClientState)

  /** A tick's effect: the line and shared state after it, the values
      pushed into host states in order, and the pins a measurement was
      started on. */
  datatype TickResult = TickResult(line: PermanentLine, shared: Shared, pushes: seq<Push>, measuredOn: seq<byte>)

  /** `UniPermanentLine::IsRegistered`: the module in the shared buffer is
      bound to this controller, i.e. the packet's controller id field is
      this controller's id. */
  function IsRegistered(p: Packet, controllerId: byte): (b: bool)
    ensures b <==> Decode(p).controllerId == controllerId
  {
    ControllerId(p) == controllerId
  }

  /** The "module went away" update of the last client, against whatever
      the shared buffer holds: it marks every state that buffer's registered
      slots own as "no data", and pushes nothing else. */
  function OfflineUpdate(line: PermanentLine, d: Dispatcher, sh: Shared, now: uint32): (r: UpdateResult)
    ensures line.lastClient.None? ==> r == UpdateResult([], sh.client, None)
    ensures line.lastClient.Some? ==> r == ClientUpdate(line.lastClient.value, d, sh.client, sh.scratchpad, false, now)
    ensures forall q :: q in r.pushes ==> Fed(q.target.state.kind) && q.reading == NoData(q.target.state.kind)
    ensures line.lastClient == Some(SensorsClient) ==>
      forall k :: 0 <= k < MaxSlots ==> Delivers(d, SlotAt(sh.scratchpad, k), false, r.pushes)
  {
    match line.lastClient
    case None => UpdateResult([], sh.client, None)
    case Some(k) => ClientUpdate(k, d, sh.client, sh.scratchpad, false, now)
  }

  /** `UniPermanentLine::Update(dt)`. Once the accumulated time reaches the
      poll interval it is reduced by one interval; the last client is told
      its module is offline; the line is read; and only a packet that
      passes the checksum and carries this controller's id is handed,
      online, to the client for its type, which becomes the last client. */
  function Tick(line: PermanentLine, dt: nat, interval: nat, d: Dispatcher, sh: Shared,
                bus: BusRead, crc: Crc8, controllerId: byte, now: uint32): (r: TickResult)
    // too early: only the timer moves
    ensures line.timer + dt < interval ==> r == TickResult(line.(timer := line.timer + dt), sh, [], [])
    // a poll
    ensures line.timer + dt >= interval ==>
      var off := OfflineUpdate(line, d, sh, now);
      var rd := Read(line.pin, bus, sh.scratchpad, crc);
      && r.line.pin == line.pin
      && r.line.timer == line.timer + dt - interval
      && r.shared.scratchpad == rd.buffer
      && off.pushes <= r.pushes
      && (!rd.ok || !IsRegistered(rd.buffer, controllerId) ==>
            && r.line.lastClient == line.lastClient && r.pushes == off.pushes && r.shared.client == off.client
            && r.measuredOn == ToSeq(off.measuredOn))
      && (rd.ok && IsRegistered(rd.buffer, controllerId) ==>
            var k := GetClient(Some(rd.buffer));
            var on := ClientUpdate(k, d, SetPin(k, off.client, line.pin), rd.buffer, true, now);
            && r.line.lastClient == Some(k)
            && r.pushes == off.pushes + on.pushes
            && r.shared.client == on.client
            && r.measuredOn == ToSeq(off.measuredOn) + ToSeq(on.measuredOn)
            && (k == SensorsClient ==> r.shared.client.pin == line.pin)
            && (forall q :: q in on.pushes ==> exists j :: 0 <= j < MaxSlots && FedBy(d, SlotAt(rd.buffer, j), true, q))
            && (k == SensorsClient ==> forall j :: 0 <= j < MaxSlots ==> Delivers(d, SlotAt(rd.buffer, j), true, r.pushes)))
  {
    var t := line.timer + dt;
    if t < interval then TickResult(line.(timer := t), sh, [], [])
    else
      var polled := line.(timer := t - interval);
      var off := OfflineUpdate(line, d, sh, now);
      var rd := Read(line.pin, bus, sh.scratchpad, crc);
      if !rd.ok || !IsRegistered(rd.buffer, controllerId) then
        TickResult(polled, Shared(rd.buffer, off.client), off.pushes, ToSeq(off.measuredOn))
      else
        var k := GetClient(Some(rd.buffer));
        var on := ClientUpdate(k, d, SetPin(k, off.client, line.pin), rd.buffer, true, now);
        TickResult(polled.(lastClient := Some(k)), Shared(rd.buffer, on.client),
                   off.pushes + on.pushes, ToSeq(off.measuredOn) + ToSeq(on.measuredOn))
  }

  /** A poll with no previous client whose read returns another
      controller's module pushes nothing and leaves the line without a
      client. */
  lemma ForeignModuleIgnored(line: PermanentLine, dt: nat, interval: nat, d: Dispatcher, sh: Shared,
                             raw: Packet, crc: Crc8, controllerId: byte, now: uint32)
    requires line.lastClient.None?
    requires line.timer + dt >= interval
    requires ControllerId(raw) != controllerId
    ensures var r := Tick(line, dt, interval, d, sh, Received(raw), crc, controllerId, now);
      r.pushes == [] && r.line.lastClient.None? && r.measuredOn == []
  {
  }

  /** A poll whose read fails still tells the last client its module is
      offline: exactly the offline update's "no data" pushes are made. */
  lemma AbsentModuleGoesOffline(line: PermanentLine, dt: nat, interval: nat, d: Dispatcher, sh: Shared,
                                crc: Crc8, controllerId: byte, now: uint32)
    requires line.timer + dt >= interval
    ensures var r := Tick(line, dt, interval, d, sh, NoPresence, crc, controllerId, now);
      && r.pushes == OfflineUpdate(line, d, sh, now).pushes
      && r.line.lastClient == line.lastClient
      && r.shared.scratchpad == sh.scratchpad
      && forall q :: q in r.pushes ==> q.reading == NoData(q.target.state.kind)
  {
  }

  /** The shared sensor client measures on the pin it was last bound to:
      when a line that last saw a sensor module polls and the cooldown has
      passed, the offline update starts the measurement on that pin, which
      may belong to another line, and the line's own online update then
      finds the cooldown just restarted and measures nothing. */
  lemma OfflineMeasuresOnSharedPin(line: PermanentLine, dt: nat, interval: nat, d: Dispatcher, sh: Shared,
                                   bus: BusRead, crc: Crc8, controllerId: byte, now: uint32)
    requires line.timer + dt >= interval
    requires line.lastClient == Some(SensorsClient)
    requires MeasureDue(now, sh.client.measureTimer)
    ensures Tick(line, dt, interval, d, sh, bus, crc, controllerId, now).measuredOn == [sh.client.pin]
  {
    assert Sub32(now, now) == 0;
  }

  /** Polls happen once per interval: a tick fires iff the accumulated time
      reaches the interval, and a timer kept below the interval stays below
      it as long as no single step exceeds the interval. */
  lemma TimerStaysBelowInterval(line: PermanentLine, dt: nat, interval: nat, d: Dispatcher, sh: Shared,
                                bus: BusRead, crc: Crc8, controllerId: byte, now: uint32)
    requires line.timer < interval && dt <= interval
    ensures Tick(line, dt, interval, d, sh, bus, crc, controllerId, now).line.timer < interval
  {
  }

  // ---------------------------------------------------------------------
  // Registration line
  // ---------------------------------------------------------------------

  /** `UniRegistrationLine`: its pin and its own scratchpad buffer. */
  datatype RegistrationLine = RegistrationLine(pin: byte, scratchpad: Packet)

  /** The constructor fills the buffer with 0xFF. */
  function NewRegistrationLine(pin: byte): (line: RegistrationLine)
    ensures line.pin == pin
    ensures forall i :: 0 <= i < PacketSize ==> line.scratchpad[i] == 0xFF
  {
    RegistrationLine(pin, seq(PacketSize, _ => 0xFF))
  }

  datatype Presence = Presence(present: bool, line: RegistrationLine)

  /** `UniRegistrationLine::IsModulePresent`: a read into the line's own
      buffer, which takes whatever bytes arrive, even when the checksum then
      fails. */
  function IsModulePresent(line: RegistrationLine, bus: BusRead, crc: Crc8): (r: Presence)
    ensures r.present <==> line.pin > 0 && bus.Received? && ChecksumValid(crc, bus.raw)
    ensures r.line.pin == line.pin
    ensures line.pin > 0 && bus.Received? ==> r.line.scratchpad == bus.raw
    ensures line.pin == 0 || bus.NoPresence? ==> r.line == line
  {
    var rd := Read(line.pin, bus, line.scratchpad, crc);
    Presence(rd.ok, line.(scratchpad := rd.buffer))
  }

  /** `UniRegistrationLine::CopyScratchpad`. */
  function CopyScratchpad(line: RegistrationLine): (p: Packet)
    ensures Decode(p) == Decode(line.scratchpad)
  {
    line.scratchpad
  }

  /** `UniRegistrationLine::IsSameScratchpadType`; `None` is a null pointer. */
  function IsSameScratchpadType(line: RegistrationLine, src: Option<Packet>): (same: bool)
    ensures same <==> src.Some? && Decode(src.value).packetType == Decode(line.scratchpad).packetType
  {
    match src
    case None => false
    case Some(p) => PacketType(line.scratchpad) == PacketType(p)
  }

  datatype SetResult = SetResult(ok: bool, line: RegistrationLine)

  /** `UniRegistrationLine::SetScratchpadData`: replaces the buffer only
      with a packet of the same type, so a line's packet type never
      changes through it. */
  function SetScratchpadData(line: RegistrationLine, src: Option<Packet>): (r: SetResult)
    ensures r.ok <==> src.Some? && PacketType(src.value) == PacketType(line.scratchpad)
    ensures r.ok ==> r.line == line.(scratchpad := src.value)
    ensures !r.ok ==> r.line == line
    ensures PacketType(r.line.scratchpad) == PacketType(line.scratchpad)
  {
    if !IsSameScratchpadType(line, src) then SetResult(false, line)
    else SetResult(true, line.(scratchpad := src.value))
  }

  datatype Registered = Registered(line: RegistrationLine, dispatcher: Dispatcher, eeprom: Eeprom,
                                   written: bool, committed: bool)

  /** `UniRegistrationLine::Register`: the client for the buffer's type
      registers the packet with the controller; then the buffer is written
      back to the module (stamped with this controller's id and the
      checksum) and, if the write went through, committed to the module's
      EEPROM. */
  function Register(line: RegistrationLine, d: Dispatcher, e: Eeprom, base: nat, controllerId: byte,
                    crc: Crc8, writeBus: Resets, saveBus: Resets): (r: Registered)
    ensures var reg := ClientRegister(GetClient(Some(line.scratchpad)), d, e, base, line.scratchpad);
      r.dispatcher == reg.dispatcher && r.eeprom == reg.eeprom
    ensures r.line.pin == line.pin
    ensures line.pin > 0 ==> r.line.scratchpad == Stamp(line.scratchpad, controllerId, crc)
    ensures line.pin == 0 ==> r.line.scratchpad == line.scratchpad
    ensures r.written <==> line.pin > 0 && writeBus.presence && writeBus.closing
    ensures r.committed <==> r.written && saveBus.presence && saveBus.closing
    ensures line.pin > 0 ==> ControllerId(r.line.scratchpad) == controllerId && ChecksumValid(crc, r.line.scratchpad)
    ensures PacketType(r.line.scratchpad) == PacketType(line.scratchpad)
  {
    var reg := ClientRegister(GetClient(Some(line.scratchpad)), d, e, base, line.scratchpad);
    var w := Write(line.pin, line.scratchpad, controllerId, crc, writeBus);
    var committed := w.ok && Issue(line.pin, saveBus);
    Registered(line.(scratchpad := w.buffer), reg.dispatcher, reg.eeprom, w.ok, committed)
  }

  /** After a registration whose write went through, a permanent line that
      reads back what was written accepts the packet as this controller's
      module and hands it to the same client. */
  lemma RegisteredModuleIsPolled(line: RegistrationLine, d: Dispatcher, e: Eeprom, base: nat, controllerId: byte,
                                 crc: Crc8, writeBus: Resets, saveBus: Resets, other: Packet)
    requires Register(line, d, e, base, controllerId, crc, writeBus, saveBus).written
    ensures var w := Register(line, d, e, base, controllerId, crc, writeBus, saveBus).line.scratchpad;
      var rd := Read(line.pin, Received(w), other, crc);
      && rd.ok
      && IsRegistered(rd.buffer, controllerId)
      && GetClient(Some(rd.buffer)) == GetClient(Some(line.scratchpad))
  {
  }
}

=== FILE: registry.dfy ===
/** The index registry (`UniRegDispatcher`): for each sensor category it
    keeps the number of states hard-coded in the firmware and the number of
    "virtual" states handed out to universal modules, merges a module's
    relative sensor index into the host module's dense state array, and
    persists the four counters in EEPROM.

    The host modules (STATE, HUMIDITY, LIGHT, SOIL) are not modelled as
    objects: each is the set of (kind, absolute index) states it holds, and
    a category whose module is absent from the build has `None`. */
module Registry {
  import opened Wrappers
  import opened Bytes
  import opened Scratchpad

  /** `UniSensorType`, decoded from the slot's type byte. */
  datatype SensorType =
    | UniNone
    | UniTemp
    | UniHumidity
    | UniLuminosity
    | UniSoilMoisture
    | UniPH
    | UniOther(tag: byte)

  /** The cast `(UniSensorType) type`: tags 0..5 name the enumerators, any
      other byte matches no case of the firmware's switches. */
  function SensorTypeOf(tag: byte): (t: SensorType)
    ensures t.UniOther? <==> tag > 5
    ensures t.UniOther? ==> t.tag == tag
  {
    match tag
    case 0 => UniNone
    case 1 => UniTemp
    case 2 => UniHumidity
    case 3 => UniLuminosity
    case 4 => UniSoilMoisture
    case 5 => UniPH
    case _ => UniOther(tag)
  }

  /** The categories the registry keeps counters for. */
  datatype Category = Temperature | Humidity | Luminosity | SoilMoisture

  /** Which category a sensor type's index space belongs to; pH and the
      rest have none (the registry refuses them). */
  function CategoryOf(t: SensorType): (c: Option<Category>)
    ensures c.Some? <==> t in {UniTemp, UniHumidity, UniLuminosity, UniSoilMoisture}
  {
    match t
    case UniTemp => Some(Temperature)
    case UniHumidity => Some(Humidity)
    case UniLuminosity => Some(Luminosity)
    case UniSoilMoisture => Some(SoilMoisture)
    case _ => None
  }

  /** The sensor type whose index space is the category's. */
  function TypeOf(c: Category): (t: SensorType)
    ensures CategoryOf(t) == Some(c)
  {
    match c
    case Temperature => UniTemp
    case Humidity => UniHumidity
    case Luminosity => UniLuminosity
    case SoilMoisture => UniSoilMoisture
  }

  /** The kinds of the host's state objects (`ModuleStates`). */
  datatype StateKind =
    | StateTemperature
    | StateHumidity
    | StateLuminosity
    | StateSoilMoisture
    | StateWaterFlowInstant
    | StateWaterFlowIncremental
    | StatePH
    | StateUnknown

  /** A state object of a host module: its kind and absolute index. */
  datatype HostState = HostState(kind: StateKind, index: nat)

  /** A host module's state objects. */
  type HostModule = set<HostState>

  /** The kinds allocated per relative index of a category: a humidity
      sensor also measures temperature, so it gets one of each. */
  function KindsOf(c: Category): (ks: set<StateKind>)
    ensures ks != {}
  {
    match c
    case Temperature => {StateTemperature}
    case Humidity => {StateTemperature, StateHumidity}
    case Luminosity => {StateLuminosity}
    case SoilMoisture => {StateSoilMoisture}
  }

  /** The kind whose count is the category's hard-coded count. */
  function CountedKind(c: Category): (k: StateKind)
    ensures k in KindsOf(c)
  {
    match c
    case Temperature => StateTemperature
    case Humidity => StateHumidity
    case Luminosity => StateLuminosity
    case SoilMoisture => StateSoilMoisture
  }

  /** The states for relative indices `lo .. hi-1` of a category whose
      hard-coded count is `base`: every kind of the category at every
      absolute index `base + lo .. base + hi - 1`, and nothing else. */
  function Allocation(c: Category, base: nat, lo: nat, hi: nat): (r: set<HostState>)
    ensures forall s :: s in r <==> s.kind in KindsOf(c) && base + lo <= s.index < base + hi
  {
    set i: nat, k | base + lo <= i < base + hi && k in KindsOf(c) :: HostState(k, i)
  }

  /** Allocating relative indices `lo .. hi-1` above `base + off` is
      allocating `lo + off .. hi + off - 1` above `base`. */
  lemma AllocationShift(c: Category, base: nat, off: nat, lo: nat, hi: nat)
    ensures Allocation(c, base + off, lo, hi) == Allocation(c, base, lo + off, hi + off)
  {
  }

  lemma AllocationSplit(c: Category, base: nat, lo: nat, mid: nat, hi: nat)
    requires lo <= mid <= hi
    ensures Allocation(c, base, lo, mid) + Allocation(c, base, mid, hi) == Allocation(c, base, lo, hi)
  {
  }

  /** The `AddState` calls of one turn of the allocation loop. */
  function SlotStates(c: Category, index: nat): (r: set<HostState>)
    ensures r == Allocation(c, index, 0, 1)
  {
    match c
    case Temperature => {HostState(StateTemperature, index)}
    case Humidity => {HostState(StateTemperature, index), HostState(StateHumidity, index)}
    case Luminosity => {HostState(StateLuminosity, index)}
    case SoilMoisture => {HostState(StateSoilMoisture, index)}
  }

  /** The allocation loop `for (cntr = k; cntr < toAdd; cntr++) AddState(...,
      base + cntr)`, turn by turn. */
  function AddSpan(states: HostModule, c: Category, base: nat, k: nat, toAdd: nat): (r: HostModule)
    requires k <= toAdd
    ensures r == states + Allocation(c, base, k, toAdd)
    decreases toAdd - k
  {
    if k == toAdd then states
    else
      AllocationSplit(c, base, k, k + 1, toAdd);
      AddSpan(states + SlotStates(c, base + k), c, base, k + 1, toAdd)
  }

  /** One category's registry entry. */
  datatype Bank = Bank(host: Option<HostModule>, hardCoded: nat, current: byte)

  /** `UniRegDispatcher`: one bank per category. */
  datatype Dispatcher = Dispatcher(temperature: Bank, humidity: Bank, luminosity: Bank, soilMoisture: Bank) {

    function BankOf(c: Category): Bank {
      match c
      case Temperature => temperature
      case Humidity => humidity
      case Luminosity => luminosity
      case SoilMoisture => soilMoisture
    }

    function WithBank(c: Category, b: Bank): (d: Dispatcher)
      ensures d.BankOf(c) == b
      ensures forall c' :: c' != c ==> d.BankOf(c') == BankOf(c')
    {
      match c
      case Temperature => this.(temperature := b)
      case Humidity => this.(humidity := b)
      case Luminosity => this.(luminosity := b)
      case SoilMoisture => this.(soilMoisture := b)
    }
  }

  /** Density: every relative index below the current count has all of its
      states allocated at `hardCoded + index` in the category's module. */
  ghost predicate DenseBank(c: Category, b: Bank) {
    b.host.Some? ==> Allocation(c, b.hardCoded, 0, b.current) <= b.host.value
  }

  ghost predicate Dense(d: Dispatcher) {
    forall c :: DenseBank(c, d.BankOf(c))
  }

  /** `d'` is `d` after some registrations: the same modules present, the
      same hard-coded counts, no counter lower and no state removed. */
  ghost predicate Extends(d: Dispatcher, d': Dispatcher) {
    forall c :: ExtendsBank(d.BankOf(c), d'.BankOf(c))
  }

  ghost predicate ExtendsBank(b: Bank, b': Bank) {
    && b'.hardCoded == b.hardCoded
    && b'.host.Some? == b.host.Some?
    && b.current <= b'.current
    && (b.host.Some? ==> b.host.value <= b'.host.value)
  }

  /** The answer of `AddUniSensor` together with the registry after it. */
  datatype Reply = Reply(added: bool, dispatcher: Dispatcher)

  /** `UniRegDispatcher::AddUniSensor`: reserves relative index
      `sensorIndex` of the sensor type's category, allocating the states of
      every relative index from the current count up to it. */
  function AddUniSensor(d: Dispatcher, t: SensorType, sensorIndex: byte): (r: Reply)
    // the guards: each one refuses and changes nothing
    ensures sensorIndex == Unassigned ==> !r.added
    ensures CategoryOf(t).None? ==> !r.added
    ensures CategoryOf(t).Some? && d.BankOf(CategoryOf(t).value).host.None? ==> !r.added
    ensures CategoryOf(t).Some? && sensorIndex < d.BankOf(CategoryOf(t).value).current ==> !r.added
    ensures !r.added ==> r.dispatcher == d
    // otherwise it succeeds
    ensures (&& sensorIndex != Unassigned && CategoryOf(t).Some?
             && d.BankOf(CategoryOf(t).value).host.Some?
             && d.BankOf(CategoryOf(t).value).current <= sensorIndex) ==> r.added
    // and allocates exactly the states of the missing indices
    ensures r.added ==>
      var c := CategoryOf(t).value;
      var b := d.BankOf(c);
      && r.dispatcher.BankOf(c) == Bank(Some(b.host.value + Allocation(c, b.hardCoded, b.current, sensorIndex as nat + 1)),
                                         b.hardCoded, sensorIndex + 1)
      && (forall c' :: c' != c ==> r.dispatcher.BankOf(c') == d.BankOf(c'))
  {
    if sensorIndex == Unassigned then Reply(false, d)
    else match CategoryOf(t)
      case None => Reply(false, d)
      case Some(c) =>
        var b := d.BankOf(c);
        if b.host.None? then Reply(false, d)
        else if sensorIndex < b.current then Reply(false, d)
        else
          var toAdd := sensorIndex - b.current + 1;
          var states := AddSpan(b.host.value, c, b.hardCoded + b.current, 0, toAdd);
          AllocationShift(c, b.hardCoded, b.current, 0, toAdd);
          Reply(true, d.WithBank(c, Bank(Some(states), b.hardCoded, b.current + toAdd)))
  }

  /** `UniRegDispatcher::GetUniSensorsCount`. */
  function GetUniSensorsCount(d: Dispatcher, t: SensorType): (n: byte)
    ensures CategoryOf(t).None? ==> n == 0
    ensures CategoryOf(t).Some? ==> n == d.BankOf(CategoryOf(t).value).current
  {
    match t
    case UniTemp => d.temperature.current
    case UniHumidity => d.humidity.current
    case UniLuminosity => d.luminosity.current
    case UniSoilMoisture => d.soilMoisture.current
    case _ => 0
  }

  // ---------------------------------------------------------------------
  // Lookup
  // ---------------------------------------------------------------------

  /** A host state object, together with the category whose module owns it. */
  datatype Handle = Handle(owner: Category, state: HostState)

  /** `UniSensorState`: up to two state objects fed by one slot. */
  datatype StatePair = StatePair(state1: Option<Handle>, state2: Option<Handle>)

  const NoStates: StatePair := StatePair(None, None)

  datatype Lookup = Lookup(found: bool, states: StatePair)

  /** The kind `GetRegisteredStates` puts in `State1`; a humidity sensor's
      first state is its temperature. */
  function PrimaryKind(c: Category): (k: StateKind)
    ensures k in KindsOf(c)
  {
    match c
    case Temperature => StateTemperature
    case Humidity => StateTemperature
    case Luminosity => StateLuminosity
    case SoilMoisture => StateSoilMoisture
  }

  /** `ModuleState::GetState`: the state of `kind` at `index`, if any. */
  function GetState(c: Category, m: HostModule, kind: StateKind, index: nat): (h: Option<Handle>)
    ensures h.Some? <==> HostState(kind, index) in m
    ensures h.Some? ==> h.value == Handle(c, HostState(kind, index))
  {
    if HostState(kind, index) in m then Some(Handle(c, HostState(kind, index))) else None
  }

  /** `h` is a state the category's module holds for relative index `i`. */
  ghost predicate HandleFor(d: Dispatcher, c: Category, i: nat, h: Handle) {
    var b := d.BankOf(c);
    && b.host.Some?
    && h.owner == c
    && h.state.kind in KindsOf(c)
    && h.state.index == b.hardCoded + i
    && h.state in b.host.value
  }

  /** `UniRegDispatcher::GetRegisteredStates`, writing into the caller's
      `resultStates`, whose previous content is `prior`: `State1` is always
      overwritten once a module is bound, but `State2` only for a humidity
      sensor. `found` reflects `State1` alone. */
  function GetRegisteredStates(d: Dispatcher, t: SensorType, sensorIndex: byte, prior: StatePair): (r: Lookup)
    ensures CategoryOf(t).None? ==> r == Lookup(false, prior)
    ensures CategoryOf(t).Some? && d.BankOf(CategoryOf(t).value).host.None? ==> r == Lookup(false, prior)
    ensures r.found ==> CategoryOf(t).Some? && d.BankOf(CategoryOf(t).value).host.Some?
    ensures CategoryOf(t).Some? && d.BankOf(CategoryOf(t).value).host.Some? ==>
      var c := CategoryOf(t).value;
      && (r.found <==> HostState(PrimaryKind(c), d.BankOf(c).hardCoded + sensorIndex) in d.BankOf(c).host.value)
      && (r.found <==> r.states.state1.Some?)
      && (r.found ==> HandleFor(d, c, sensorIndex, r.states.state1.value)
                      && r.states.state1.value.state.kind == PrimaryKind(c))
      && (c == Humidity ==>
            (r.states.state2.Some? <==> HostState(StateHumidity, d.BankOf(c).hardCoded + sensorIndex) in d.BankOf(c).host.value))
      && (c == Humidity && r.states.state2.Some? ==>
            HandleFor(d, c, sensorIndex, r.states.state2.value) && r.states.state2.value.state.kind == StateHumidity)
      && (c != Humidity ==> r.states.state2 == prior.state2)
  {
    match CategoryOf(t)
    case None => Lookup(false, prior)
    case Some(c) =>
      var b := d.BankOf(c);
      if b.host.None? then Lookup(false, prior)
      else
        var index := b.hardCoded + sensorIndex;
        var s1 := GetState(c, b.host.value, PrimaryKind(c), index);
        var s2 := if c == Humidity then GetState(c, b.host.value, StateHumidity, index) else prior.state2;
        Lookup(s1.Some?, StatePair(s1, s2))
  }

  // ---------------------------------------------------------------------
  // Persistence
  // ---------------------------------------------------------------------

  /** The EEPROM: bytes by address; an address never written reads 0xFF. */
  type Eeprom = map<nat, byte>

  function Peek(e: Eeprom, a: nat): byte {
    if a in e then e[a] else 0xFF
  }

  /** The position of a category's counter in the persisted record. */
  function CounterOffset(c: Category): (o: nat)
    ensures o < 4
  {
    match c
    case Temperature => 0
    case Humidity => 1
    case Luminosity => 2
    case SoilMoisture => 3
  }

  /** `UniRegDispatcher::SaveState`: the four counters, in the order
      temperature, humidity, luminosity, soil moisture, at `base`. */
  function SaveState(d: Dispatcher, e: Eeprom, base: nat): (e': Eeprom)
    ensures forall c :: Peek(e', base + CounterOffset(c)) == d.BankOf(c).current
    ensures forall a :: a in e && !(base <= a < base + 4) ==> a in e' && e'[a] == e[a]
    ensures forall a :: a in e' ==> a in e || base <= a < base + 4
  {
    e[base := d.temperature.current]
     [base + 1 := d.humidity.current]
     [base + 2 := d.luminosity.current]
     [base + 3 := d.soilMoisture.current]
  }

  /** One counter as `ReadState` loads it: 0xFF means "never written", so
      the counter keeps its value. */
  function Loaded(prior: byte, stored: byte): (v: byte)
    ensures stored != 0xFF ==> v == stored
    ensures stored == 0xFF ==> v == prior
  {
    if stored != 0xFF then stored else prior
  }

  /** `UniRegDispatcher::ReadState`. */
  function ReadState(d: Dispatcher, e: Eeprom, base: nat): (r: Dispatcher)
    ensures forall c :: r.BankOf(c) == d.BankOf(c).(current := Loaded(d.BankOf(c).current, Peek(e, base + CounterOffset(c))))
  {
    var t := Peek(e, base);
    var h := Peek(e, base + 1);
    var l := Peek(e, base + 2);
    var s := Peek(e, base + 3);
    Dispatcher(d.temperature.(current := Loaded(d.temperature.current, t)),
               d.humidity.(current := Loaded(d.humidity.current, h)),
               d.luminosity.(current := Loaded(d.luminosity.current, l)),
               d.soilMoisture.(current := Loaded(d.soilMoisture.current, s)))
  }

  /** Persistence round trip: saving and reading back restores every
      counter below 255, whatever the registry read into held before. The
      modules and hard-coded counts are those of the registry read into. */
  lemma SaveThenRead(d: Dispatcher, into: Dispatcher, e: Eeprom, base: nat)
    requires forall c :: d.BankOf(c).current < 0xFF
    ensures forall c :: ReadState(into, SaveState(d, e, base), base).BankOf(c)
                        == into.BankOf(c).(current := d.BankOf(c).current)
  {
  }

  /** The boundary the 0xFF convention leaves: a count of 255 (relative
      index 254 registered) is saved as 0xFF and reads back as "never
      written", so the counter keeps whatever it held before. */
  lemma SaveThenReadLosesFullCount(d: Dispatcher, into: Dispatcher, e: Eeprom, base: nat, c: Category)
    requires d.BankOf(c).current == 0xFF
    ensures ReadState(into, SaveState(d, e, base), base).BankOf(c).current == into.BankOf(c).current
  {
  }

  /** A blank EEPROM leaves every counter at its default. */
  lemma ReadBlank(d: Dispatcher, base: nat)
    ensures ReadState(d, map[], base) == d
  {
    assert forall c :: ReadState(d, map[], base).BankOf(c) == d.BankOf(c);
  }

  // ---------------------------------------------------------------------
  // Boot replay
  // ---------------------------------------------------------------------

  /** One bank of `UniRegDispatcher::RestoreState`: re-allocates the states
      of relative indices `0 .. current-1`, one loop turn per index. */
  method RestoreBank(c: Category, b: Bank) returns (b': Bank)
    ensures b'.hardCoded == b.hardCoded && b'.current == b.current
    ensures b.host.None? ==> b' == b
    ensures b.host.Some? ==> b'.host == Some(b.host.value + Allocation(c, b.hardCoded, 0, b.current))
    ensures DenseBank(c, b')
  {
    b' := b;
    if b.host.Some? {
      var states := b.host.value;
      var cntr: byte := 0;
      while cntr < b.current
        invariant cntr <= b.current
        invariant states == b.host.value + Allocation(c, b.hardCoded, 0, cntr)
      {
        AllocationSplit(c, b.hardCoded, 0, cntr, cntr as nat + 1);
        states := states + SlotStates(c, b.hardCoded + cntr);
        cntr := cntr + 1;
      }
      b' := Bank(Some(states), b.hardCoded, b.current);
    }
  }

  /** `UniRegDispatcher::RestoreState`: replays every bank's allocation. */
  method RestoreState(d: Dispatcher) returns (d': Dispatcher)
    ensures Dense(d')
    ensures forall c :: d'.BankOf(c).current == d.BankOf(c).current && d'.BankOf(c).hardCoded == d.BankOf(c).hardCoded
    ensures forall c :: d.BankOf(c).host.Some? ==>
      d'.BankOf(c).host == Some(d.BankOf(c).host.value + Allocation(c, d.BankOf(c).hardCoded, 0, d.BankOf(c).current))
    ensures forall c :: d.BankOf(c).host.None? ==> d'.BankOf(c) == d.BankOf(c)
  {
    var t := RestoreBank(Temperature, d.temperature);
    var h := RestoreBank(Humidity, d.humidity);
    var l := RestoreBank(Luminosity, d.luminosity);
    var s := RestoreBank(SoilMoisture, d.soilMoisture);
    d' := Dispatcher(t, h, l, s);
  }

  /** The boot replay of a count `n > 0` allocates the same states as a
      single registration of relative index `n - 1` on an empty counter. */
  lemma ReplayIsOneRegistration(d: Dispatcher, c: Category, n: byte)
    requires d.BankOf(c).host.Some? && d.BankOf(c).current == 0
    requires 0 < n < 0xFF
    ensures var r := AddUniSensor(d, TypeOf(c), n - 1);
      && r.added
      && r.dispatcher.BankOf(c) == Bank(Some(d.BankOf(c).host.value + Allocation(c, d.BankOf(c).hardCoded, 0, n)),
                                        d.BankOf(c).hardCoded, n)
  {
  }

  /** The hard-coded count `Setup` takes from a host module. */
  function HardCodedCount(c: Category, m: HostModule): nat {
    |set s | s in m && s.kind == CountedKind(c)|
  }

  function InitialBank(c: Category, m: Option<HostModule>): (b: Bank)
    ensures b.host == m && b.current == 0
  {
    match m
    case None => Bank(None, 0, 0)
    case Some(states) => Bank(m, HardCodedCount(c, states), 0)
  }

  /** The host module `Setup` looks up for a category. */
  function ModuleFor(c: Category, temperature: Option<HostModule>, humidity: Option<HostModule>,
                     luminosity: Option<HostModule>, soilMoisture: Option<HostModule>): Option<HostModule>
  {
    match c
    case Temperature => temperature
    case Humidity => humidity
    case Luminosity => luminosity
    case SoilMoisture => soilMoisture
  }

  /** `UniRegDispatcher::Setup`, once the host modules have been looked up:
      hard-coded counts from the modules that are present, all four counters
      from EEPROM, then the replay of every bound category. */
  method Setup(temperature: Option<HostModule>, humidity: Option<HostModule>,
               luminosity: Option<HostModule>, soilMoisture: Option<HostModule>,
               e: Eeprom, base: nat) returns (d: Dispatcher)
    ensures Dense(d)
    ensures forall c :: d.BankOf(c).current == Loaded(0, Peek(e, base + CounterOffset(c)))
    ensures forall c :: ModuleFor(c, temperature, humidity, luminosity, soilMoisture).None? ==>
      d.BankOf(c).host.None? && d.BankOf(c).hardCoded == 0
    ensures forall c :: ModuleFor(c, temperature, humidity, luminosity, soilMoisture).Some? ==>
      var m := ModuleFor(c, temperature, humidity, luminosity, soilMoisture).value;
      && d.BankOf(c).hardCoded == HardCodedCount(c, m)
      && d.BankOf(c).host == Some(m + Allocation(c, HardCodedCount(c, m), 0, d.BankOf(c).current))
  {
    var initial := Dispatcher(InitialBank(Temperature, temperature), InitialBank(Humidity, humidity),
                              InitialBank(Luminosity, luminosity), InitialBank(SoilMoisture, soilMoisture));
    assert forall c :: initial.BankOf(c) == InitialBank(c, ModuleFor(c, temperature, humidity, luminosity, soilMoisture));
    var loaded := ReadState(initial, e, base);
    d := RestoreState(loaded);
    forall c | ModuleFor(c, temperature, humidity, luminosity, soilMoisture).Some?
      ensures d.BankOf(c).host == Some(ModuleFor(c, temperature, humidity, luminosity, soilMoisture).value
                                       + Allocation(c, d.BankOf(c).hardCoded, 0, d.BankOf(c).current))
    {
      assert loaded.BankOf(c).host == initial.BankOf(c).host;
    }
  }
}

=== FILE: registry_facts.dfy ===
/** Properties of the index registry that relate several operations:
    density, monotonicity and idempotence of registration, the effect of a
    sequence of registrations, and lookup mirroring allocation. */
module RegistryFacts {
  import opened Wrappers
  import opened Bytes
  import opened Scratchpad
  import opened Registry

  /** A successful registration keeps the registry dense: the states of
      the old indices stay, and the new ones are exactly the indices from
      the old count up to the registered one. */
  lemma AddPreservesDense(d: Dispatcher, t: SensorType, i: byte)
    requires Dense(d)
    ensures Dense(AddUniSensor(d, t, i).dispatcher)
  {
    var r := AddUniSensor(d, t, i);
    if r.added {
      var c := CategoryOf(t).value;
      var b := d.BankOf(c);
      assert DenseBank(c, b);
      AllocationSplit(c, b.hardCoded, 0, b.current, i as nat + 1);
      assert DenseBank(c, r.dispatcher.BankOf(c));
      forall c' ensures DenseBank(c', r.dispatcher.BankOf(c')) {
        if c' != c {
          assert DenseBank(c', d.BankOf(c'));
        }
      }
    }
  }

  /** Registration only ever grows the registry. */
  lemma AddExtends(d: Dispatcher, t: SensorType, i: byte)
    ensures Extends(d, AddUniSensor(d, t, i).dispatcher)
  {
    var r := AddUniSensor(d, t, i);
    forall c ensures ExtendsBank(d.BankOf(c), r.dispatcher.BankOf(c)) {
    }
  }

  /** Registering the same index twice has the effect of registering it
      once: the second call is refused and changes nothing. */
  lemma AddIdempotent(d: Dispatcher, t: SensorType, i: byte)
    ensures var once := AddUniSensor(d, t, i).dispatcher;
      AddUniSensor(once, t, i) == Reply(false, once)
  {
  }

  /** The count a successful registration leaves is the registered index
      plus one, and a refused one leaves every count as it was. */
  lemma CountAfterAdd(d: Dispatcher, t: SensorType, i: byte, u: SensorType)
    ensures var r := AddUniSensor(d, t, i);
      && (r.added ==> GetUniSensorsCount(r.dispatcher, t) as nat == i as nat + 1)
      && (!r.added ==> GetUniSensorsCount(r.dispatcher, u) == GetUniSensorsCount(d, u))
  {
  }

  /** A registration the registry refuses is still refused once the
      registry has grown. */
  lemma RefusalPersists(d: Dispatcher, d': Dispatcher, t: SensorType, i: byte)
    requires Extends(d, d')
    requires !AddUniSensor(d, t, i).added
    ensures !AddUniSensor(d', t, i).added
  {
    if CategoryOf(t).Some? {
      var c := CategoryOf(t).value;
      assert ExtendsBank(d.BankOf(c), d'.BankOf(c));
    }
  }

  lemma ExtendsTransitive(d1: Dispatcher, d2: Dispatcher, d3: Dispatcher)
    requires Extends(d1, d2) && Extends(d2, d3)
    ensures Extends(d1, d3)
  {
    forall c ensures ExtendsBank(d1.BankOf(c), d3.BankOf(c)) {
      assert ExtendsBank(d1.BankOf(c), d2.BankOf(c));
      assert ExtendsBank(d2.BankOf(c), d3.BankOf(c));
    }
  }

  /** Registering the relative indices `idxs`, one after the other. */
  function AddAll(d: Dispatcher, t: SensorType, idxs: seq<byte>): Dispatcher
    decreases |idxs|
  {
    if idxs == [] then d
    else AddUniSensor(AddAll(d, t, idxs[..|idxs| - 1]), t, idxs[|idxs| - 1]).dispatcher
  }

  /** One more than the largest index in `idxs`; 0 for none. */
  function CountFor(idxs: seq<byte>): nat
    decreases |idxs|
  {
    if idxs == [] then 0
    else
      var rest := CountFor(idxs[..|idxs| - 1]);
      var last := idxs[|idxs| - 1] as nat + 1;
      if rest < last then last else rest
  }

  function Max(a: nat, b: nat): nat {
    if a < b then b else a
  }

  /** After any sequence of registrations in a bound category, its count is
      one more than the largest index registered (or the old count, if
      that is larger), every index below it is allocated, and the other
      categories are untouched. */
  lemma {:induction false} AddAllCount(d: Dispatcher, t: SensorType, idxs: seq<byte>)
    requires CategoryOf(t).Some? && d.BankOf(CategoryOf(t).value).host.Some?
    requires forall k :: 0 <= k < |idxs| ==> idxs[k] != Unassigned
    requires Dense(d)
    ensures var c := CategoryOf(t).value;
      && AddAll(d, t, idxs).BankOf(c).current as nat == Max(d.BankOf(c).current as nat, CountFor(idxs))
      && AddAll(d, t, idxs).BankOf(c).host.Some?
      && Dense(AddAll(d, t, idxs))
      && forall c' :: c' != c ==> AddAll(d, t, idxs).BankOf(c') == d.BankOf(c')
    decreases |idxs|
  {
    if idxs != [] {
      var prefix := idxs[..|idxs| - 1];
      AddAllCount(d, t, prefix);
      AddPreservesDense(AddAll(d, t, prefix), t, idxs[|idxs| - 1]);
    }
  }

  /** Lookup mirrors allocation: in a dense registry every relative index
      below the count is found, and every state found for relative index
      `i` is the one allocated for `i` at `hardCoded + i`. */
  lemma LookupMirrorsAllocation(d: Dispatcher, t: SensorType, i: byte, prior: StatePair)
    requires Dense(d)
    requires CategoryOf(t).Some? && d.BankOf(CategoryOf(t).value).host.Some?
    requires i < d.BankOf(CategoryOf(t).value).current
    ensures var r := GetRegisteredStates(d, t, i, prior);
      && r.found
      && (CategoryOf(t) == Some(Humidity) ==> r.states.state2.Some?)
  {
    var c := CategoryOf(t).value;
    var b := d.BankOf(c);
    assert DenseBank(c, b);
    assert HostState(PrimaryKind(c), b.hardCoded + i) in Allocation(c, b.hardCoded, 0, b.current);
    if c == Humidity {
      assert HostState(StateHumidity, b.hardCoded + i) in Allocation(c, b.hardCoded, 0, b.current);
    }
  }

  /** After a registration succeeds, every index up to the registered one
      can be looked up. */
  lemma AddThenLookup(d: Dispatcher, t: SensorType, i: byte, j: byte, prior: StatePair)
    requires Dense(d)
    requires AddUniSensor(d, t, i).added
    requires j <= i
    ensures GetRegisteredStates(AddUniSensor(d, t, i).dispatcher, t, j, prior).found
  {
    AddPreservesDense(d, t, i);
    LookupMirrorsAllocation(AddUniSensor(d, t, i).dispatcher, t, j, prior);
  }

  /** A lookup that starts from an empty pair only ever yields states of
      the slot's own category at `hardCoded + index`. */
  lemma FreshLookupTargetsOwnSlot(d: Dispatcher, t: SensorType, i: byte)
    ensures var r := GetRegisteredStates(d, t, i, NoStates);
      && (r.states.state1.Some? ==> HandleFor(d, CategoryOf(t).value, i, r.states.state1.value))
      && (r.states.state2.Some? ==> HandleFor(d, CategoryOf(t).value, i, r.states.state2.value))
  {
  }
}

=== FILE: scratchpad.dfy ===
/** The scratchpad: the fixed-size packet a universal module exchanges with
    the controller over a 1-Wire line, its byte layout, its checksum, and
    the four bus transactions (`UniScratchpadClass`) that move it.

    The firmware overlays a C struct on the raw bytes; here the packet is a
    byte sequence of fixed length and every field is read at an explicit
    offset. The bus itself is not modelled: each transaction takes what the
    bus answered (presence pulses, the bytes clocked in) as a parameter.
    The CRC-8 primitive of the OneWire library is a parameter too. */
module Scratchpad {
  import opened Bytes

  /** MAX_UNI_SENSORS: slots in a sensor module's payload. */
  const MaxSlots: nat := 3
  /** A slot: sensor type tag, relative index, four data bytes. */
  const SlotSize: nat := 6
  /** The payload area of the raw scratchpad. */
  const DataSize: nat := 24
  /** The header: packet type tag, controller id. */
  const HeadSize: nat := 2
  const PacketSize: nat := HeadSize + DataSize + 1
  /** The checksum is the last byte. */
  const CrcOffset: nat := PacketSize - 1

  /** NO_SENSOR_REGISTERED: an unassigned type tag or relative index. */
  const Unassigned: byte := 0xFF

  type Packet = p: seq<byte> | |p| == PacketSize witness seq(HeadSize + DataSize + 1, _ => 0xFF)

  type Quad = s: seq<byte> | |s| == 4 witness [0, 0, 0, 0]

  /** One sensor slot of a sensor module's payload. */
  datatype Slot = Slot(sensorType: byte, index: byte, data: Quad)

  /** The structured view of a packet. */
  datatype Frame = Frame(packetType: byte, controllerId: byte, payload: seq<byte>, crc: byte)

  predicate WellSized(f: Frame) {
    |f.payload| == DataSize
  }

  function Encode(f: Frame): (p: Packet)
    requires WellSized(f)
  {
    [f.packetType, f.controllerId] + f.payload + [f.crc]
  }

  function Decode(p: Packet): (f: Frame)
    ensures WellSized(f)
  {
    Frame(p[0], p[1], p[HeadSize..CrcOffset], p[CrcOffset])
  }

  /** Encoding and decoding are inverse bijections between well-sized
      frames and packets. */
  lemma FrameRoundTrip(f: Frame, p: Packet)
    requires WellSized(f)
    ensures Decode(Encode(f)) == f
    ensures Encode(Decode(p)) == p
  {
    assert Encode(f)[HeadSize..CrcOffset] == f.payload;
    assert p == [p[0], p[1]] + p[HeadSize..CrcOffset] + [p[CrcOffset]];
  }

  function PacketType(p: Packet): byte {
    p[0]
  }

  function ControllerId(p: Packet): byte {
    p[1]
  }

  /** The `i`-th slot of a sensor module's payload. */
  function SlotAt(p: Packet, i: nat): (s: Slot)
    requires i < MaxSlots
  {
    var o := HeadSize + i * SlotSize;
    Slot(p[o], p[o + 1], p[o + 2..o + 6])
  }

  /** All slots of a sensor module's payload, in order. */
  function Slots(p: Packet): (s: seq<Slot>)
    ensures |s| == MaxSlots
    ensures forall i :: 0 <= i < MaxSlots ==> s[i] == SlotAt(p, i)
  {
    seq(MaxSlots, i requires 0 <= i < MaxSlots => SlotAt(p, i))
  }

  function SlotBytes(s: Slot): (b: seq<byte>)
    ensures |b| == SlotSize
  {
    [s.sensorType, s.index] + s.data
  }

  /** The slots laid out one after the other. */
  function Flatten(slots: seq<Slot>): (b: seq<byte>)
    ensures |b| == |slots| * SlotSize
  {
    if slots == [] then [] else SlotBytes(slots[0]) + Flatten(slots[1..])
  }

  /** The slot encoded at position `i` of a flattened layout is slot `i`. */
  lemma {:induction false} FlattenAt(slots: seq<Slot>, i: nat)
    requires i < |slots|
    ensures Flatten(slots)[i * SlotSize..i * SlotSize + SlotSize] == SlotBytes(slots[i])
  {
    if i > 0 {
      FlattenAt(slots[1..], i - 1);
      assert Flatten(slots) == SlotBytes(slots[0]) + Flatten(slots[1..]);
      assert Flatten(slots)[i * SlotSize..i * SlotSize + SlotSize]
          == Flatten(slots[1..])[(i - 1) * SlotSize..(i - 1) * SlotSize + SlotSize];
    }
  }

  /** Round trip of the payload: laying out `MaxSlots` slots (followed by
      any padding up to the payload size) and reading the slots of the
      resulting packet gives back the same slots. */
  lemma {:induction false} SlotsRoundTrip(t: byte, id: byte, slots: seq<Slot>, pad: seq<byte>, crc: byte)
    requires |slots| == MaxSlots
    requires |pad| == DataSize - MaxSlots * SlotSize
    ensures WellSized(Frame(t, id, Flatten(slots) + pad, crc))
    ensures Slots(Encode(Frame(t, id, Flatten(slots) + pad, crc))) == slots
  {
    var f := Frame(t, id, Flatten(slots) + pad, crc);
    var p := Encode(f);
    forall i | 0 <= i < MaxSlots
      ensures SlotAt(p, i) == slots[i]
    {
      FlattenAt(slots, i);
      var o := HeadSize + i * SlotSize;
      assert p[o..o + SlotSize] == Flatten(slots)[i * SlotSize..i * SlotSize + SlotSize];
      assert p[o..o + SlotSize] == SlotBytes(slots[i]);
      assert p[o + 2..o + 6] == SlotBytes(slots[i])[2..];
    }
  }

  // ---------------------------------------------------------------------
  // Checksum and transport
  // ---------------------------------------------------------------------

  /** `OneWire::crc8` over a byte range: supplied by the bus library. */
  type Crc8 = seq<byte> -> byte

  /** The bytes the checksum covers: all but the last. */
  function Body(p: Packet): seq<byte> {
    p[..CrcOffset]
  }

  predicate ChecksumValid(crc: Crc8, p: Packet) {
    crc(Body(p)) == p[CrcOffset]
  }

  /** What the bus answered to a read: no presence pulse after the reset,
      or the `PacketSize` bytes clocked in after the read command. */
  datatype BusRead = NoPresence | Received(raw: Packet)

  /** The two resets of a command transaction: the presence pulse at the
      start and the reset that closes it. */
  datatype Resets = Resets(presence: bool, closing: bool)

  datatype ReadResult = ReadResult(ok: bool, buffer: Packet)

  /** `UniScratchpadClass::read` on pin `pin` into `buffer`. The received
      bytes are stored into the buffer before the checksum is checked, so a
      corrupted packet is reported like an absent module but still
      overwrites the buffer. */
  function Read(pin: byte, bus: BusRead, buffer: Packet, crc: Crc8): (r: ReadResult)
    ensures r.ok <==> pin > 0 && bus.Received? && ChecksumValid(crc, bus.raw)
    ensures r.ok ==> r.buffer == bus.raw
    ensures pin == 0 || bus.NoPresence? ==> r.buffer == buffer
    ensures pin > 0 && bus.Received? ==> r.buffer == bus.raw
  {
    if pin == 0 then ReadResult(false, buffer)
    else match bus
      case NoPresence => ReadResult(false, buffer)
      case Received(raw) => ReadResult(crc(raw[..CrcOffset]) == raw[CrcOffset], raw)
  }

  /** A missing module and a corrupted packet give the caller the same
      answer. */
  lemma AbsentAndCorruptReadAlike(pin: byte, raw: Packet, buffer: Packet, crc: Crc8)
    requires !ChecksumValid(crc, raw)
    ensures Read(pin, NoPresence, buffer, crc).ok == Read(pin, Received(raw), buffer, crc).ok == false
  {
  }

  /** The stamping done by `UniScratchpadClass::write` before anything is
      sent: the controller's id goes into the header and the checksum of
      the result into the last byte. */
  function Stamp(p: Packet, id: byte, crc: Crc8): (q: Packet)
    ensures ControllerId(q) == id
    ensures ChecksumValid(crc, q)
    ensures forall i :: 0 <= i < CrcOffset && i != 1 ==> q[i] == p[i]
  {
    var withId := p[1 := id];
    withId[CrcOffset := crc(withId[..CrcOffset])]
  }

  datatype WriteResult = WriteResult(ok: bool, buffer: Packet)

  /** `UniScratchpadClass::write`: stamps the buffer (even when no module
      answers), then sends it; succeeds iff both resets are answered. */
  function Write(pin: byte, buffer: Packet, id: byte, crc: Crc8, bus: Resets): (r: WriteResult)
    ensures r.ok <==> pin > 0 && bus.presence && bus.closing
    ensures pin == 0 ==> r.buffer == buffer
    ensures pin > 0 ==> r.buffer == Stamp(buffer, id, crc)
  {
    if pin == 0 then WriteResult(false, buffer)
    else WriteResult(bus.presence && bus.closing, Stamp(buffer, id, crc))
  }

  /** `UniScratchpadClass::startMeasure` and `save`, which differ only in
      the command byte sent and the settle delay of `save`: a reset, the
      command and a closing reset. */
  function Issue(pin: byte, bus: Resets): (ok: bool)
    ensures ok <==> pin > 0 && bus.presence && bus.closing
  {
    if pin == 0 then false
    else if !bus.presence then false
    else bus.closing
  }

  /** What a module stores after a successful write is a packet the next
      read accepts, with this controller's id in it. */
  lemma WriteThenReadAccepted(pin: byte, buffer: Packet, id: byte, crc: Crc8, bus: Resets, other: Packet)
    requires pin > 0
    ensures var w := Write(pin, buffer, id, crc, bus);
      && Read(pin, Received(w.buffer), other, crc) == ReadResult(true, w.buffer)
      && ControllerId(w.buffer) == id
  {
  }
}

=== FILE: sensor_data.dfy ===
/** How the sensor client turns a slot's four data bytes into values for
    the host's state objects (`SensorsUniClient::UpdateOneState`,
    `UpdateStateData` and the slot loop of `Update`). */
module SensorData {
  import opened Wrappers
  import opened Bytes
  import opened Scratchpad
  import opened Registry

  /** NO_TEMPERATURE_DATA: the integer part pushed when the module is
      offline (also used for humidity and soil moisture). */
  const NoTemperatureData: int8 := -128
  /** NO_LUMINOSITY_DATA, as the `unsigned long` it is stored in. */
  const NoLuminosityData: uint32 := 0xFFFF_FFFF

  /** The value objects the firmware hands to `OneState::Update`:
      `Temperature(b1, b2)`, `Humidity(b1, b2)` or an `unsigned long`. */
  datatype Reading =
    | TemperatureReading(whole: int8, fraction: byte)
    | HumidityReading(whole: int8, fraction: byte)
    | LuminosityReading(lux: uint32)

  /** A value pushed into a host state object. */
  datatype Push = Push(target: Handle, reading: Reading)

  /** The bytes a reading occupies in a slot's data. */
  function ReadingBytes(r: Reading): (b: seq<byte>)
    ensures |b| == (if r.LuminosityReading? then 4 else 2)
  {
    match r
    case TemperatureReading(w, f) => [Int8Byte(w), f]
    case HumidityReading(w, f) => [Int8Byte(w), f]
    case LuminosityReading(lux) => LittleEndianBytes(lux)
  }

  /** The state kinds the sensor client feeds; water flow, pH and unknown
      states are left alone. */
  predicate Fed(k: StateKind) {
    k in {StateTemperature, StateHumidity, StateSoilMoisture, StateLuminosity}
  }

  /** The reading shape a state kind takes. */
  predicate Fits(k: StateKind, r: Reading) {
    match k
    case StateTemperature => r.TemperatureReading?
    case StateHumidity => r.HumidityReading?
    case StateSoilMoisture => r.HumidityReading?
    case StateLuminosity => r.LuminosityReading?
    case _ => false
  }

  /** What an offline module's slot pushes into a state of kind `k`. */
  function NoData(k: StateKind): (r: Reading)
    requires Fed(k)
    ensures Fits(k, r)
  {
    match k
    case StateTemperature => TemperatureReading(NoTemperatureData, 0)
    case StateLuminosity => LuminosityReading(NoLuminosityData)
    case StateHumidity => HumidityReading(NoTemperatureData, 0)
    case StateSoilMoisture => HumidityReading(NoTemperatureData, 0)
  }

  /** Where a state's value starts in the slot's data: a humidity sensor
      sends humidity in bytes 0-1 and temperature in bytes 2-3; every
      other value starts at byte 0. */
  function DataOffset(k: StateKind, sensorType: byte): (o: nat)
    ensures o == 0 || o == 2
    ensures o == 2 <==> k == StateTemperature && SensorTypeOf(sensorType) == UniHumidity
  {
    if k == StateTemperature && sensorType == 2 then 2 else 0
  }

  /** A slot both loops of the sensor client skip outright: no type
      assigned, or type uniNone. */
  predicate Untyped(s: Slot) {
    s.sensorType == Unassigned || SensorTypeOf(s.sensorType) == UniNone
  }

  /** A slot without a sensor: index or type unassigned, or type uniNone. */
  predicate Inert(s: Slot) {
    s.index == Unassigned || Untyped(s)
  }

  /** `SensorsUniClient::UpdateOneState`: the value a slot pushes into one
      state object. Online, the pushed value is the one whose bytes sit at
      the state's offset in the slot; offline, it is the "no data" value. */
  function UpdateOneState(os: Option<Handle>, slot: Slot, online: bool): (r: Option<Push>)
    ensures os.None? || Inert(slot) ==> r.None?
    ensures os.Some? && !Inert(slot) ==> (r.Some? <==> Fed(os.value.state.kind))
    ensures r.Some? ==> r.value.target == os.value && Fits(os.value.state.kind, r.value.reading)
    ensures r.Some? && !online ==> r.value.reading == NoData(os.value.state.kind)
    ensures r.Some? && online ==>
      var o := DataOffset(os.value.state.kind, slot.sensorType);
      slot.data[o..o + |ReadingBytes(r.value.reading)|] == ReadingBytes(r.value.reading)
  {
    if os.None? || Inert(slot) then None
    else
      var h := os.value;
      var o := DataOffset(h.state.kind, slot.sensorType);
      match h.state.kind
      case StateTemperature =>
        var b1 := if online then Int8(slot.data[o]) else NoTemperatureData;
        var b2 := if online then slot.data[o + 1] else 0;
        Int8RoundTrip(slot.data[o], b1);
        Some(Push(h, TemperatureReading(b1, b2)))
      case StateHumidity =>
        var b1 := if online then Int8(slot.data[0]) else NoTemperatureData;
        var b2 := if online then slot.data[1] else 0;
        Int8RoundTrip(slot.data[0], b1);
        Some(Push(h, HumidityReading(b1, b2)))
      case StateSoilMoisture =>
        var b1 := if online then Int8(slot.data[0]) else NoTemperatureData;
        var b2 := if online then slot.data[1] else 0;
        Int8RoundTrip(slot.data[0], b1);
        Some(Push(h, HumidityReading(b1, b2)))
      case StateLuminosity =>
        var lum := if online then LittleEndian32(slot.data) else NoLuminosityData;
        LittleEndianRoundTrip(lum, slot.data);
        Some(Push(h, LuminosityReading(lum)))
      case _ => None
  }

  /** Decoding inverts encoding: a slot carrying the bytes of reading `v` at
      the state's offset pushes exactly `v` while the module is online. */
  lemma DecodeEncoded(h: Handle, slot: Slot, v: Reading)
    requires !Inert(slot)
    requires Fits(h.state.kind, v)
    requires var o := DataOffset(h.state.kind, slot.sensorType);
      slot.data[o..o + |ReadingBytes(v)|] == ReadingBytes(v)
    ensures UpdateOneState(Some(h), slot, true) == Some(Push(h, v))
  {
    var r := UpdateOneState(Some(h), slot, true);
    var o := DataOffset(h.state.kind, slot.sensorType);
    assert r.Some?;
    var w := r.value.reading;
    assert slot.data[o..o + |ReadingBytes(w)|] == ReadingBytes(w);
    match v
    case TemperatureReading(a, f) =>
      assert Int8Byte(a) == Int8Byte(w.whole) by {
        assert ReadingBytes(v)[0] == slot.data[o] == ReadingBytes(w)[0];
      }
      Int8RoundTrip(Int8Byte(a), a);
      Int8RoundTrip(Int8Byte(w.whole), w.whole);
      assert ReadingBytes(v)[1] == slot.data[o + 1] == ReadingBytes(w)[1];
    case HumidityReading(a, f) =>
      assert Int8Byte(a) == Int8Byte(w.whole) by {
        assert ReadingBytes(v)[0] == slot.data[o] == ReadingBytes(w)[0];
      }
      Int8RoundTrip(Int8Byte(a), a);
      Int8RoundTrip(Int8Byte(w.whole), w.whole);
      assert ReadingBytes(v)[1] == slot.data[o + 1] == ReadingBytes(w)[1];
    case LuminosityReading(lux) =>
      LittleEndianRoundTrip(lux, slot.data);
      LittleEndianRoundTrip(w.lux, slot.data);
  }

  /** `SensorsUniClient::UpdateStateData`: both states of the pair, in order. */
  function UpdateStateData(states: StatePair, slot: Slot, online: bool): (r: seq<Push>)
    ensures |r| <= 2
    ensures forall p :: p in r ==> Some(p.target) in {states.state1, states.state2}
    ensures forall p :: p in r ==> UpdateOneState(Some(p.target), slot, online) == Some(p)
    ensures forall h :: Some(h) in {states.state1, states.state2} && UpdateOneState(Some(h), slot, online).Some? ==>
      UpdateOneState(Some(h), slot, online).value in r
  {
    if !(states.state1.Some? || states.state2.Some?) then []
    else ToSeq(UpdateOneState(states.state1, slot, online)) + ToSeq(UpdateOneState(states.state2, slot, online))
  }

  /** `s` is a typed slot whose registry states include `h`. */
  ghost predicate SlotOwns(d: Dispatcher, s: Slot, h: Handle) {
    var t := SensorTypeOf(s.sensorType);
    CategoryOf(t).Some? && HandleFor(d, CategoryOf(t).value, s.index, h)
  }

  /** `p` is what registered slot `s` decodes for `p`'s target: the loop
      only updates the states of a slot whose lookup was found. */
  ghost predicate DecodedBy(d: Dispatcher, s: Slot, online: bool, p: Push) {
    SlotFound(d, s) && UpdateOneState(Some(p.target), s, online) == Some(p)
  }

  /** `p` is what registered slot `s` pushes into a state it owns. */
  ghost predicate FedBy(d: Dispatcher, s: Slot, online: bool, p: Push) {
    DecodedBy(d, s, online, p) && SlotOwns(d, s, p.target)
  }

  /** `s` names a registered sensor: its category's module is bound and
      holds the first state at the slot's absolute index, so the lookup of
      `GetRegisteredStates` succeeds. */
  ghost predicate SlotFound(d: Dispatcher, s: Slot) {
    var t := SensorTypeOf(s.sensorType);
    && CategoryOf(t).Some?
    && var b := d.BankOf(CategoryOf(t).value);
    && b.host.Some?
    && HostState(PrimaryKind(CategoryOf(t).value), b.hardCoded + s.index) in b.host.value
  }

  /** Every state a registered slot owns receives, somewhere in `r`, the
      value the slot decodes for it. */
  ghost predicate Delivers(d: Dispatcher, s: Slot, online: bool, r: seq<Push>) {
    forall h :: SlotFound(d, s) && SlotOwns(d, s, h) && UpdateOneState(Some(h), s, online).Some? ==>
      UpdateOneState(Some(h), s, online).value in r
  }

  /** Whatever pair the caller hands in, the lookup for a registered slot
      succeeds and puts every state the slot owns into the pair. */
  lemma OwnedInLookup(d: Dispatcher, s: Slot, prior: StatePair, h: Handle)
    requires SlotFound(d, s) && SlotOwns(d, s, h)
    ensures var l := GetRegisteredStates(d, SensorTypeOf(s.sensorType), s.index, prior);
      l.found && Some(h) in {l.states.state1, l.states.state2}
  {
    var c := CategoryOf(SensorTypeOf(s.sensorType)).value;
    var l := GetRegisteredStates(d, SensorTypeOf(s.sensorType), s.index, prior);
    var b := d.BankOf(c);
    if h.state.kind == PrimaryKind(c) {
      assert l.states.state1 == Some(h);
    } else {
      assert c == Humidity && h.state.kind == StateHumidity;
      assert l.states.state2 == Some(h);
    }
  }

  /** A slot's own pushes under any incoming pair deliver what it decodes
      for the states it owns. */
  lemma DeliversOwnTurn(d: Dispatcher, s: Slot, online: bool, prior: StatePair)
    requires !Untyped(s)
    ensures var l := GetRegisteredStates(d, SensorTypeOf(s.sensorType), s.index, prior);
      Delivers(d, s, online, if l.found then UpdateStateData(l.states, s, online) else [])
  {
    var l := GetRegisteredStates(d, SensorTypeOf(s.sensorType), s.index, prior);
    forall h | SlotFound(d, s) && SlotOwns(d, s, h) && UpdateOneState(Some(h), s, online).Some?
      ensures UpdateOneState(Some(h), s, online).value in (if l.found then UpdateStateData(l.states, s, online) else [])
    {
      OwnedInLookup(d, s, prior, h);
    }
  }

  /** Adding pushes never undoes a delivery. */
  lemma DeliversGrow(d: Dispatcher, s: Slot, online: bool, a: seq<Push>, b: seq<Push>)
    requires Delivers(d, s, online, b)
    ensures Delivers(d, s, online, a + b) && Delivers(d, s, online, b + a)
  {
  }

  /** The slot loop of `SensorsUniClient::Update` as written: one
      `UniSensorState` lives across all turns, so a lookup that does not
      overwrite `State2` leaves the previous slot's second state in it.
      Every registered slot's own states still receive their values, and
      every push is a value some slot decodes, but not necessarily into a
      state that slot owns (see `StaleSecondState`). */
  function UpdateSlotsAsWritten(d: Dispatcher, slots: seq<Slot>, online: bool, states: StatePair): (r: seq<Push>)
    ensures forall p :: p in r ==> exists k :: 0 <= k < |slots| && DecodedBy(d, slots[k], online, p)
    ensures forall p :: p in r ==> Some(p.target) == states.state2 || exists j :: 0 <= j < |slots| && SlotOwns(d, slots[j], p.target)
    ensures forall k :: 0 <= k < |slots| ==> Delivers(d, slots[k], online, r)
    decreases |slots|
  {
    if slots == [] then []
    else
      var s := slots[0];
      if Untyped(s) then
        var rest := UpdateSlotsAsWritten(d, slots[1..], online, states);
        AsWrittenTail(d, slots, online, [], rest);
        AsWrittenTargets(d, slots, states.state2, states.state2, [], rest);
        DeliversTail(d, slots, online, [], rest);
        rest
      else
        var l := GetRegisteredStates(d, SensorTypeOf(s.sensorType), s.index, states);
        var rest := UpdateSlotsAsWritten(d, slots[1..], online, l.states);
        var own := if l.found then UpdateStateData(l.states, s, online) else [];
        TurnTargets(d, s, online, states);
        AsWrittenTail(d, slots, online, own, rest);
        AsWrittenTargets(d, slots, states.state2, l.states.state2, own, rest);
        DeliversOwnTurn(d, s, online, states);
        DeliversTail(d, slots, online, own, rest);
        own + rest
  }

  /** One turn of the loop as written, whatever pair it is handed: it pushes
      only for a found slot, into that slot's own states or the second state
      it was handed, and the second state it passes on, if any, is the one
      it was handed or one the slot owns. */
  lemma TurnTargets(d: Dispatcher, s: Slot, online: bool, prior: StatePair)
    requires !Untyped(s)
    ensures var l := GetRegisteredStates(d, SensorTypeOf(s.sensorType), s.index, prior);
      && (l.states.state2.Some? ==> l.states.state2 == prior.state2 || SlotOwns(d, s, l.states.state2.value))
      && (l.found ==> SlotFound(d, s))
      && (l.found ==> forall p :: p in UpdateStateData(l.states, s, online) ==>
            Some(p.target) == prior.state2 || SlotOwns(d, s, p.target))
  {
    var t := SensorTypeOf(s.sensorType);
    var l := GetRegisteredStates(d, t, s.index, prior);
    if CategoryOf(t).Some? && d.BankOf(CategoryOf(t).value).host.Some? && CategoryOf(t).value == Humidity {
      if l.states.state2.Some? {
        assert HandleFor(d, Humidity, s.index, l.states.state2.value);
      }
    }
  }

  /** The first turn's pushes and the later turns' pushes are decoded by
      registered slots of `slots`. */
  lemma AsWrittenTail(d: Dispatcher, slots: seq<Slot>, online: bool, own: seq<Push>, rest: seq<Push>)
    requires slots != []
    requires forall p :: p in own ==> DecodedBy(d, slots[0], online, p)
    requires forall p :: p in rest ==> exists k :: 0 <= k < |slots[1..]| && DecodedBy(d, slots[1..][k], online, p)
    ensures forall p :: p in own + rest ==> exists k :: 0 <= k < |slots| && DecodedBy(d, slots[k], online, p)
  {
    forall p | p in own + rest ensures exists k :: 0 <= k < |slots| && DecodedBy(d, slots[k], online, p) {
      if p !in own {
        var k :| 0 <= k < |slots[1..]| && DecodedBy(d, slots[1..][k], online, p);
        assert slots[1..][k] == slots[k + 1];
      }
    }
  }

  /** Targets compose across turns: a later turn's push lands in a state
      some later slot owns or in the second state passed on, which is the
      one handed in or one the first slot owns. */
  lemma AsWrittenTargets(d: Dispatcher, slots: seq<Slot>, prior: Option<Handle>, mid: Option<Handle>,
                         own: seq<Push>, rest: seq<Push>)
    requires slots != []
    requires mid.Some? ==> mid == prior || SlotOwns(d, slots[0], mid.value)
    requires forall p :: p in own ==> Some(p.target) == prior || SlotOwns(d, slots[0], p.target)
    requires forall p :: p in rest ==> Some(p.target) == mid || exists j :: 0 <= j < |slots[1..]| && SlotOwns(d, slots[1..][j], p.target)
    ensures forall p :: p in own + rest ==> Some(p.target) == prior || exists j :: 0 <= j < |slots| && SlotOwns(d, slots[j], p.target)
  {
    forall p | p in own + rest ensures Some(p.target) == prior || exists j :: 0 <= j < |slots| && SlotOwns(d, slots[j], p.target) {
      if p in own {
        if Some(p.target) != prior {
          assert SlotOwns(d, slots[0], p.target);
        }
      } else if Some(p.target) == mid {
        if mid != prior {
          assert SlotOwns(d, slots[0], p.target);
        }
      } else {
        var j :| 0 <= j < |slots[1..]| && SlotOwns(d, slots[1..][j], p.target);
        assert slots[1..][j] == slots[j + 1];
      }
    }
  }

  /** The turn of the first slot delivers its own states and the later
      turns deliver theirs; an untyped first slot owns nothing. */
  lemma DeliversTail(d: Dispatcher, slots: seq<Slot>, online: bool, own: seq<Push>, rest: seq<Push>)
    requires slots != []
    requires Delivers(d, slots[0], online, own) || Untyped(slots[0])
    requires forall k :: 0 <= k < |slots[1..]| ==> Delivers(d, slots[1..][k], online, rest)
    ensures forall k :: 0 <= k < |slots| ==> Delivers(d, slots[k], online, own + rest)
  {
    forall k | 0 <= k < |slots| ensures Delivers(d, slots[k], online, own + rest) {
      if k == 0 {
        if Delivers(d, slots[0], online, own) {
          DeliversGrow(d, slots[0], online, rest, own);
        }
      } else {
        assert slots[1..][k - 1] == slots[k];
        DeliversGrow(d, slots[k], online, own, rest);
      }
    }
  }

  /** The pushes of one slot, looked up afresh: exactly what it decodes
      for the states it owns, every one of them once it is registered. */
  function SlotPushes(d: Dispatcher, s: Slot, online: bool): (r: seq<Push>)
    ensures forall p :: p in r ==> FedBy(d, s, online, p)
    ensures Delivers(d, s, online, r)
    ensures !online ==> forall p :: p in r ==> Fed(p.target.state.kind) && p.reading == NoData(p.target.state.kind)
  {
    if Untyped(s) then []
    else
      var l := GetRegisteredStates(d, SensorTypeOf(s.sensorType), s.index, NoStates);
      DeliversOwnTurn(d, s, online, NoStates);
      if l.found then UpdateStateData(l.states, s, online) else []
  }

  /** The slot loop of `SensorsUniClient::Update` with the state pair reset
      for every slot: every value pushed is the one a slot decodes for a
      state that slot owns, every state a registered slot owns receives
      its value, and an offline module only pushes "no data". */
  function UpdateSlots(d: Dispatcher, slots: seq<Slot>, online: bool): (r: seq<Push>)
    ensures forall p :: p in r ==> exists k :: 0 <= k < |slots| && FedBy(d, slots[k], online, p)
    ensures forall k :: 0 <= k < |slots| ==> Delivers(d, slots[k], online, r)
    ensures !online ==> forall p :: p in r ==> Fed(p.target.state.kind) && p.reading == NoData(p.target.state.kind)
    decreases |slots|
  {
    if slots == [] then []
    else
      var rest := UpdateSlots(d, slots[1..], online);
      DeliversTail(d, slots, online, SlotPushes(d, slots[0], online), rest);
      assert forall p :: p in rest ==> exists k :: 0 <= k < |slots| && FedBy(d, slots[k], online, p) by {
        forall p | p in rest ensures exists k :: 0 <= k < |slots| && FedBy(d, slots[k], online, p) {
          var k :| 0 <= k < |slots[1..]| && FedBy(d, slots[1..][k], online, p);
          assert slots[1..][k] == slots[k + 1];
        }
      }
      SlotPushes(d, slots[0], online) + rest
  }

  /** The two loops agree whenever no slot can inherit a stale `State2`:
      for instance, when no slot is a humidity sensor. */
  lemma {:induction false} AsWrittenAgreesWithoutHumidity(d: Dispatcher, slots: seq<Slot>, online: bool, prior: StatePair)
    requires forall k :: 0 <= k < |slots| ==> SensorTypeOf(slots[k].sensorType) != UniHumidity
    requires prior.state2 == None
    ensures UpdateSlotsAsWritten(d, slots, online, prior) == UpdateSlots(d, slots, online)
    decreases |slots|
  {
    if slots != [] {
      var s := slots[0];
      var next := prior;
      if !Untyped(s) {
        var t := SensorTypeOf(s.sensorType);
        var l := GetRegisteredStates(d, t, s.index, prior);
        var clean := GetRegisteredStates(d, t, s.index, NoStates);
        assert l.found == clean.found;
        assert l.found ==> l.states == clean.states;
        next := l.states;
      }
      AsWrittenAgreesWithoutHumidity(d, slots[1..], online, next);
    }
  }

  /** A registry with one temperature sensor and one humidity sensor, both
      at relative index 0 on top of no hard-coded states. */
  const StaleRegistry: Dispatcher :=
    Dispatcher(Bank(Some({HostState(StateTemperature, 0)}), 0, 1),
               Bank(Some({HostState(StateTemperature, 0), HostState(StateHumidity, 0)}), 0, 1),
               Bank(None, 0, 0), Bank(None, 0, 0))

  /** A humidity slot followed by a temperature slot, both at index 0. */
  const StaleSlots: seq<Slot> := [Slot(2, 0, [40, 0, 20, 0]), Slot(1, 0, [25, 5, 0, 0])]

  /** The stale `State2` of the loop as written: the temperature slot's
      bytes (25, 5) land in the humidity slot's Humidity state, a push that
      no slot of the packet makes into a state it owns. */
  lemma StaleSecondState()
    ensures var h := Handle(Humidity, HostState(StateHumidity, 0));
      && Push(h, HumidityReading(25, 5)) in UpdateSlotsAsWritten(StaleRegistry, StaleSlots, true, NoStates)
      && forall k :: 0 <= k < |StaleSlots| ==> !FedBy(StaleRegistry, StaleSlots[k], true, Push(h, HumidityReading(25, 5)))
  {
    var h := Handle(Humidity, HostState(StateHumidity, 0));
    var p := Push(h, HumidityReading(25, 5));
    var l1 := StaleLookups();
    StalePushDecoded(l1);
    StaleUnfold(l1);
    StaleNotFed(p);
  }

  /** Neither slot makes that push: the humidity slot decodes (40, 0) into
      its Humidity state, and the temperature slot does not own it. */
  lemma StaleNotFed(p: Push)
    requires p == Push(Handle(Humidity, HostState(StateHumidity, 0)), HumidityReading(25, 5))
    ensures forall k :: 0 <= k < |StaleSlots| ==> !FedBy(StaleRegistry, StaleSlots[k], true, p)
  {
    assert UpdateOneState(Some(p.target), StaleSlots[0], true) == Some(Push(p.target, HumidityReading(40, 0)));
    assert !SlotOwns(StaleRegistry, StaleSlots[1], p.target);
  }

  /** The lookups of the two slots in turn: the temperature slot's pair
      still holds the humidity slot's second state. */
  lemma StaleLookups() returns (l1: Lookup)
    ensures l1.found && l1.states.state2 == Some(Handle(Humidity, HostState(StateHumidity, 0)))
    ensures l1 == GetRegisteredStates(StaleRegistry, UniTemp, 0, GetRegisteredStates(StaleRegistry, UniHumidity, 0, NoStates).states)
  {
    var l0 := StaleHumidityLookup();
    l1 := StaleTemperatureLookup(l0.states);
  }

  /** The humidity slot's lookup fills both states. */
  lemma StaleHumidityLookup() returns (l0: Lookup)
    ensures l0 == GetRegisteredStates(StaleRegistry, UniHumidity, 0, NoStates)
    ensures l0.states.state2 == Some(Handle(Humidity, HostState(StateHumidity, 0)))
  {
    var m := StaleRegistry.humidity.host.value;
    assert HostState(StateHumidity, 0) in m;
    l0 := GetRegisteredStates(StaleRegistry, UniHumidity, 0, NoStates);
  }

  /** The temperature slot's lookup succeeds and keeps whatever second
      state it was handed. */
  lemma StaleTemperatureLookup(prior: StatePair) returns (l1: Lookup)
    ensures l1 == GetRegisteredStates(StaleRegistry, UniTemp, 0, prior)
    ensures l1.found && l1.states.state2 == prior.state2
  {
    var m := StaleRegistry.temperature.host.value;
    assert HostState(StateTemperature, 0) in m;
    l1 := GetRegisteredStates(StaleRegistry, UniTemp, 0, prior);
  }

  /** The temperature slot's turn pushes its bytes into the stale state. */
  lemma StalePushDecoded(l1: Lookup)
    requires l1.states.state2 == Some(Handle(Humidity, HostState(StateHumidity, 0)))
    ensures Push(Handle(Humidity, HostState(StateHumidity, 0)), HumidityReading(25, 5)) in UpdateStateData(l1.states, StaleSlots[1], true)
  {
    var h := Handle(Humidity, HostState(StateHumidity, 0));
    assert UpdateOneState(Some(h), StaleSlots[1], true) == Some(Push(h, HumidityReading(25, 5)));
  }

  /** The loop as written over the two slots ends with the temperature
      slot's turn. */
  lemma StaleUnfold(l1: Lookup)
    requires l1.found
    requires l1 == GetRegisteredStates(StaleRegistry, UniTemp, 0, GetRegisteredStates(StaleRegistry, UniHumidity, 0, NoStates).states)
    ensures forall q :: q in UpdateStateData(l1.states, StaleSlots[1], true) ==> q in UpdateSlotsAsWritten(StaleRegistry, StaleSlots, true, NoStates)
  {
    var d := StaleRegistry;
    var slots := StaleSlots;
    var l0 := GetRegisteredStates(d, UniHumidity, 0, NoStates);
    assert SensorTypeOf(slots[0].sensorType) == UniHumidity;
    assert SensorTypeOf(slots[1].sensorType) == UniTemp;
    var tail := UpdateSlotsAsWritten(d, slots[1..], true, l0.states);
    assert UpdateSlotsAsWritten(d, slots, true, NoStates) == (if l0.found then UpdateStateData(l0.states, slots[0], true) else []) + tail;
    assert slots[1..][1..] == [];
    assert tail == UpdateStateData(l1.states, slots[1], true) + UpdateSlotsAsWritten(d, slots[1..][1..], true, l1.states);
  }
}

=== FILE: wrappers.dfy ===
/** The optional value used wherever the firmware returns a possibly-null
    pointer (a missing host module, a missing state object, no client). */
module Wrappers {

  datatype Option<+T> = None | Some(value: T)

  /** The (zero- or one-element) sequence of the value held, for appending
      optional results one after the other. */
  function ToSeq<T>(o: Option<T>): (s: seq<T>)
    ensures |s| <= 1
    ensures o.None? <==> s == []
    ensures o.Some? ==> s == [o.value]
  {
    match o
    case None => []
    case Some(v) => [v]
  }
}
